=== FILE: README.md ===
# Interview assistant: session controller, reply formatting and login storage

This Dafny project models three parts of a desktop interview assistant. It is an
Electron main process with a React renderer.

- **The transcription session controller** (`public/electron.js`). The main process
  keeps one `ttsState` record: the streaming connection (`ws`), the speech client, the
  audio source, the `isStreaming`/`isReady` flags, whether the audio `data` listener is
  installed, and the reconnection fields.
  - The IPC handlers `tts-start-audio`, `tts-stop-audio`, `tts-start-transcription`,
    `tts-stop-transcription` and `store-tts-config` act on it.
  - So do the transcriber callbacks (`open`, `turn`, `error`, `close`), the audio
    `data` and `error` listeners, and `attemptReconnection`.
  - The model is a total state machine, `SessionModel.Step`, over one event per
    handler or callback. `SessionModel.Run` applies it to a sequence of events.
  - What the capture libraries, the speech service and the timers do is part of each
    event. That covers whether a backend starts, whether a connection is made, and
    which transcriber fires which callback.
  - Device selection off macOS (`AudioDevices`) is the first device whose name matches
    `/stereo mix|loopback|output|realtek/i`. If none matches, the id is -1.
- **Renderer helpers** (`src/App.js`).
  - `formatLLMMarkdown` (`Markdown`) cleans up a model reply. It trims the text, strips
    code fences, unescapes `\n`, `\'`, `\"` and `\\`, and removes JavaScript-style
    `' + '` joins. Each `replace` runs with JavaScript's leftmost-match semantics for its
    pattern.
  - The interaction and session dropdown labels (`Labels`) truncate with a suffix, fall
    back to defaults and strip `.pdf` without regard to case. Lengths and cuts count
    UTF-16 code units, as JavaScript's `length` and `slice` do (`Utf16`).
- **`authUtils`** (`src/utils/auth.js`, module `Auth`). It keeps the login token and
  its expiry in `localStorage`, which is modelled as a map from keys to strings.
  - `JsNumber` models integer `toString` and `parseInt`, because the expiry is written
    as text and read back.
  - `JsText` holds the white-space set shared by `trim()` and `\s`.

The session model follows the code as written, which has these consequences:

- The `close` callback of the transcriber made by `tts-start-transcription` clears
  `isStreaming` before it tests it. So it never schedules a reconnection.
- From process start, `reconnectAttempts` stays 0, no reconnect timer exists, and
  `attemptReconnection` is never entered (`SessionProps.ReachableStatesNeverReconnect`).
  `attemptReconnection` and the reconnection transcriber are still modelled in full.
  Properties about them are proved for arbitrary states.
- An `open` callback sets `ws` to its own transcriber even after the session was
  stopped.
- On macOS, an AudioTee whose `start()` throws stays stored in `audioSource` when the
  ffmpeg fallback also fails.

## Model

| member | source | states |
|---|---|---|
| SessionModel.Init | public/electron.js:23-35 | At process start no key, source, client or connection is held. Both flags are false, no listener is installed, the attempt count is 0, no timer exists and no transcriber has been made. |
| SessionModel.OnStartAudioMac | public/electron.js:243-321 | A held source makes start-audio a no-op. A started AudioTee is stored silently. When AudioTee is unavailable or its start fails, a spawned ffmpeg pipe is stored silently instead. If ffmpeg fails too, "Failed to load audio capture: " plus the AudioTee error is reported. The source is then none when AudioTee could not be created, and the unstarted AudioTee when its start failed. Start-audio changes only the source and its listener count; the key, the client, `ws`, both flags and the reconnection fields are kept. |
| SessionModel.OnStartAudioOther | public/electron.js:322-365 | A held source makes it a no-op. Otherwise it either stores the PortAudio input on the selected device, or stores nothing and reports "Failed to start audio capture". Only the source and its listener count ever change. |
| SessionModel.OnStopAudio | public/electron.js:378-413 | stop-audio clears both flags, the attempt count, the held timer, `ws`, the source and the client. It keeps the API key, the transcribers and any timer whose handle was lost, and its last message is `{running: false}`. |
| SessionModel.OnStartTranscription | public/electron.js:416-536 | start-transcription never touches the key, the source, `isStreaming` or the reconnection fields. It creates at most one transcriber, sends at most one `tts-error`, and is silent iff a key is set and either a session is already streaming or a source is held, the client exists or loads, and the connect succeeds. |
| SessionModel.OnStopTranscription | public/electron.js:538-557 | stop-transcription clears the flags, the attempt count, the held timer and `ws`. It keeps the source, its listener, the client, the key and the transcribers, and reports `{running: false}` last. |
| SessionModel.OnStoreConfig | public/electron.js:561-574 | Only a present, non-empty `apiKey` replaces the stored key. Nothing else changes and nothing is sent. |
| SessionModel.OnOpen | public/electron.js:447-459 | `open` makes the session live on the opening transcriber, resets the attempt count and the held timer, reports `{running: true}`, and leaves the source, key, client and listener alone. |
| SessionModel.OnTurn | public/electron.js:461-477 | `turn` never changes the state. It sends at most one message, the transcript itself, and only for a transcriber made by start-transcription. |
| SessionModel.OnError | public/electron.js:479-485 | `error` clears both flags and changes nothing else. It reports the message as is for the first transcriber and prefixed with "Reconnection failed: " for a reconnection transcriber (lines 615-620). |
| SessionModel.OnClose | public/electron.js:487-504 | `close` always ends the session and clears `ws`. It is silent only when it schedules a reconnection: the transcriber came from `attemptReconnection` (lines 622-639) and fewer than 5 attempts were made. Then the count goes up by one and a timer is held. Otherwise it reports `{running: false}` and leaves the reconnection fields alone. |
| SessionModel.OnCaptureError | public/electron.js:258-260 | A capture error changes no state. It is forwarded as `tts-error` for the macOS sources and dropped for the PortAudio input. That input is opened with `closeOnError: false` (line 344), so naudiodon logs its errors rather than emitting them, and the wrapper installs no error listener. |
| SessionModel.DataHandler | public/electron.js:510-527 | The `data` listener either leaves the state alone or clears both flags. It has an effect only while `ws`, `isStreaming` and `isReady` are all set. |
| SessionModel.RunDataHandlers | public/electron.js:510-527 | Running the installed listeners never changes the source, the key, the transcribers, `ws` or the reconnection fields. |
| SessionModel.OnAudioChunk | public/electron.js:510-527 | A chunk from no source, or from a source that cannot deliver, does nothing. |
| SessionModel.AttemptReconnection | public/electron.js:577-648 | `attemptReconnection` changes neither the key, the source, `ws` nor the reconnection fields. It creates at most one transcriber, only when key and source are present, and sends at most one message. It is silent iff key and source are present, the client exists or loads, and the connect succeeds. Without key or source it only reports `{running: false}`. When the client cannot be made or the connect fails (the `catch` at lines 642-646), both flags are cleared and "Reconnection failed: " plus the error is reported. A successful connect leaves the flags as they were. |
| SessionModel.OnTimerFired | public/electron.js:498-500 | The held timer firing spends its handle and runs `attemptReconnection`, as does a timer whose handle was lost, which leaves the held handle alone. Either way the result is silent iff key and source are present, the client exists or loads, and the connect succeeds. With no matching pending timer nothing happens, and the attempt count never changes. |
| SessionModel.Step | public/electron.js:243-574 | Only `store-tts-config` changes the API key. A step creates at most one transcriber and never changes existing ones. |
| SessionProps.ChunkSendsIff | public/electron.js:510-527 | An audio chunk is sent iff the source delivers, the listener is installed, and `ws`, `isStreaming` and `isReady` are all set. A throwing send clears both flags, closes that connection and reports the fixed error. Otherwise nothing happens. |
| SessionProps.StepPreservesInv | public/electron.js:243-648 | Every handler and callback keeps the relations between the `ttsState` fields: `isReady` equals `isStreaming`, streaming implies a connection, the listener flag implies a source and one listener, and attempts are at most 5. |
| SessionProps.RunPreservesInv | public/electron.js:25-36 | The state invariant holds after any sequence of events. |
| SessionProps.ReachableStatesNeverReconnect | public/electron.js:487-503 | In every state reachable from process start: `reconnectAttempts` is 0, no reconnect timer is pending, and every transcriber was made by start-transcription. |
| SessionProps.AttemptReconnectionUnreachable | public/electron.js:494-500 | In a reachable state no reconnect timer fires, so `attemptReconnection` never runs. |
| SessionProps.FirstCloseNeverReconnects | public/electron.js:487-504 | The first transcriber's `close` clears the session flags and `ws`, reports `{running: false}`, and never schedules a reconnection. |
| SessionProps.TurnForwardsNonBlank | public/electron.js:461-477 | A missing or all-white-space transcript sends nothing. Any other transcript is sent verbatim, once. The state is unchanged. |
| SessionProps.ReconnectedTurnsDropped | public/electron.js:596-639 | A transcriber made by `attemptReconnection` has no `turn` callback, so its transcripts are dropped. |
| SessionProps.StaleOpenRestartsStreaming | public/electron.js:447-459 | After stop-transcription, an `open` from any earlier transcriber turns streaming back on, with `ws` set to that transcriber. |
| SessionProps.StartAudioWhileHeldIsNoop | public/electron.js:245 | start-audio on either platform does nothing while a source is held. |
| SessionProps.UnstartedAudioTeeStaysStored | public/electron.js:251-320 | An AudioTee whose start throws, with ffmpeg also failing, stays stored. Later start-audio calls are no-ops, and chunks from it reach no listener. |
| SessionProps.StartTranscriptionGuards | public/electron.js:416-536 | The checks run in order: a missing key reports "tts API key missing", already streaming is silent, a missing source reports "Audio capture not started", and a client library that fails to load reports "Failed to start transcription". Each leaves the state unchanged. |
| SessionProps.StartTranscriptionInstallsOnce | public/electron.js:427-536 | Past the guards with a client available, exactly one transcriber is created, the client is set and `ws` is cleared. The audio listener is installed iff the connect succeeds or one already was. A failed connect reports exactly "Failed to start transcription", and a successful one is silent. |
| SessionProps.StopAudioResets | public/electron.js:378-413 | Under the invariants, stop-audio also leaves no listener. It closes the held connection first, if there is one, and reports `{running: false}` last. |
| SessionProps.StopTranscriptionThenAudio | public/electron.js:378-557 | stop-transcription followed by stop-audio reaches the same state as stop-audio alone. The connection is closed once and `{running: false}` is reported twice. |
| SessionProps.ReconnectWithoutPrerequisites | public/electron.js:577-582 | With no key or no source, `attemptReconnection` only reports `{running: false}`. |
| SessionProps.ReconnectedCloseBounded | public/electron.js:622-639 | A reconnected session's `close` schedules another attempt while fewer than 5 were made. At 5 it reports stopped instead. |
| SessionProps.ReconnectAttemptsBounded | public/electron.js:622-639 | From any state within the bound, no sequence of events takes `reconnectAttempts` past `maxReconnectAttempts`. |
| SessionProps.OrphanTimerSurvivesStop | public/electron.js:538-546 | Stopping clears only the timer whose handle is held. A timer whose handle was overwritten still fires into `attemptReconnection`. |
| SessionProps.HelloWorldSession | public/electron.js:416-477 | Starting capture, storing a key, starting transcription, opening and two turns send `{running: true}` and then only the non-blank transcript. |
| AudioDevices.MatchesLoopback | public/electron.js:330-332 | A device name matches iff it contains one of the four patterns, ignoring ASCII letter case. |
| AudioDevices.SelectDeviceId | public/electron.js:329-333 | The chosen id is -1 or the id of a device whose name matches. When no name matches, it is -1. |
| AudioDevices.SelectDeviceIdIsFirstMatch | public/electron.js:329-333 | The chosen id is that of the first matching device, or -1 when none matches. |
| AudioDevices.RealtekDeviceMatches | public/electron.js:330-332 | "Realtek" matches despite its capital letter. |
| JsText.Trim | src/App.js:17 | The trimmed text is no longer than the input, and it neither starts nor ends with white space. |
| JsText.TrimIsMiddle | src/App.js:17 | `trim()` removes only white space: the result is the piece of the input that starts after its leading white space, and everything after that piece is white space. |
| JsText.TrimEmptyIffAllSpace | public/electron.js:462 | `trim()` gives the empty string iff every character is white space. |
| Markdown.FormatLLMMarkdown | src/App.js:13-14 | A missing or empty reply gives the empty string. |
| Markdown.CleanTrimmed | src/App.js:20-35 | The replacement steps never lengthen the trimmed text and leave no '+' in it. Text without backslash, '+' or backtick passes through unchanged. |
| Markdown.StripLeadingFence | src/App.js:20-21 | Removing an opening fence yields a suffix of the input. Without the fence the text is unchanged. With it, the fence and all white space after it go, so the result does not start with white space. |
| Markdown.StripTrailingFence | src/App.js:20-21 | Removing a closing fence yields a prefix of the input. It changes the text only when the text ends with three backticks, and then the fence and all white space before it go, so the result does not end with white space. |
| Markdown.ReplacePair | src/App.js:24-35 | Replacing a two-character escape never lengthens the text and leaves text without the escape character unchanged. |
| Markdown.ReplacePairUnescapes | src/App.js:24 | On text without backslashes, replacing backslash-n undoes writing every line break as backslash-n. |
| Markdown.RemovePlusJoins | src/App.js:30 | After the first join pattern replaces globally, no '+' is left. Text without '+' is unchanged. |
| Markdown.RemoveQuotePlus | src/App.js:31 | After the second join pattern replaces globally, no '+' is left. Text without '+' is unchanged. |
| Markdown.OnePlusJoinRemoved | src/App.js:30 | In text with a single '+', the first join pattern deletes the '+' together with all white space around it and one quote after it. The text on either side is kept verbatim. |
| Markdown.QuotedJoinExample | src/App.js:30 | `'a' + 'b'` becomes `'a'b'`: the pattern takes the opening quote of the second string but not the closing quote of the first. |
| Markdown.OneQuotePlusRemoved | src/App.js:31 | In text with a single '+', the second join pattern deletes the '+' together with the white space and one quote before it. The text on either side is kept verbatim. |
| Markdown.QuotePlusExample | src/App.js:31 | `a' +b` becomes `ab`. |
| Markdown.SecondPlusStepIsNoop | src/App.js:30-31 | The second join pattern never changes the first one's output. |
| Markdown.FormatHasNoPlus | src/App.js:13-37 | A formatted reply never contains '+'. |
| Markdown.FormatNotLonger | src/App.js:17-35 | Formatting never makes the trimmed reply longer. |
| Markdown.FormatPlainIsTrim | src/App.js:17-37 | A reply whose trimmed text has no backslash, '+' or backtick comes back exactly trimmed. |
| Markdown.FencedEscapedReply | src/App.js:13-37 | A reply wrapped in a ```` ```markdown ```` fence, with white space inside the fence and line breaks written as backslash-n, comes back as the original text. This holds when the text has no backslash, '+' or backtick of its own. |
| Labels.Truncate | src/App.js:1454 | Text within the width, counted in UTF-16 code units, is unchanged. Longer text keeps its first `width` code units followed by the three-unit suffix. |
| Labels.InteractionLabel | src/App.js:1342 | A label is either the placeholder or non-empty and at most width plus the suffix long, in code units. |
| Labels.LongQuestionTruncated | src/App.js:1342 | A question longer than the width in code units becomes its first `width` code units plus the suffix. |
| Labels.ShortQuestionUnchanged | src/App.js:593 | A non-empty question of at most `width` code units is the label itself. |
| Labels.BmpQuestionCutByCharacters | src/App.js:1342 | For text without characters above U+FFFF, code units are characters, so the cut keeps the first `width` characters. |
| Labels.WideQuestionCut | src/App.js:1342 | 26 emoji are 52 code units, so a width of 50 cuts them after 25 emoji, not 50. |
| Labels.CutSplitsSurrogatePair | src/App.js:1304 | A cut can fall inside a surrogate pair: one emoji cut at width 1 keeps only its high surrogate. |
| Labels.MissingQuestionPlaceholder | src/App.js:1304 | A missing, empty or non-string question shows "(no question)". |
| Labels.StripPdf | src/App.js:1452 | A name ending in ".pdf" in any case loses exactly those four characters. Any other name is unchanged. |
| Labels.StripPdfRoundTrip | src/App.js:1452 | Appending ".pdf" in any letter case and stripping gives the base name back. |
| Labels.StripPdfOnlyOnce | src/App.js:1452 | Only the final ".pdf" is removed. ".PDF" counts, and ".pdfx" does not. |
| Labels.OrDefault | src/App.js:1450-1451 | A present non-empty value is kept. A missing or empty one becomes the fallback. |
| Labels.SessionKey | src/App.js:1449 | A non-empty `sessionId` is the key. Otherwise `id` is, even when it is empty, and a missing `id` prints as "undefined". |
| Labels.SessionLabelText | src/App.js:1449-1453 | The label text starts with "[", the session key and "] - ". A non-empty company name follows verbatim, and the text is always longer than the key plus the eight separator characters. |
| Labels.SessionLabel | src/App.js:1449-1454 | A session label is at most width plus the suffix long, and a text within the width is shown unchanged. |
| Labels.SessionLabelDefaults | src/App.js:1449-1453 | Missing company and file give "[key] - Unknown Company - No Resume". |
| Labels.SessionKeyShown | src/App.js:1449-1454 | When the width has room for `[key] - `, the shown label starts with exactly those code units, so truncation never hides the session key. |
| Auth.StoreToken | src/utils/auth.js:7-21 | An undecodable token returns false and leaves storage untouched. Otherwise both keys are written, the token verbatim, and no other key changes. |
| Auth.GetToken | src/utils/auth.js:24-26 | A token is read iff one is stored. |
| Auth.GetExpiry | src/utils/auth.js:29-32 | No stored expiry reads as null. |
| Auth.IsTokenExpired | src/utils/auth.js:35-41 | A missing or zero expiry counts as expired. A non-zero expiry is passed iff now is at or after it. |
| Auth.IsAuthenticated | src/utils/auth.js:44-49 | Authenticated iff a non-empty token is stored and the expiry parses to a non-zero time after now. |
| Auth.ClearAuth | src/utils/auth.js:52-55 | Both auth keys are gone and every other entry is kept. |
| Auth.ClearAuthLogsOut | src/utils/auth.js:52-55 | After clearing, nobody is authenticated and the login counts as expired. |
| Auth.InitializeAuth | src/utils/auth.js:69-73 | A login that has not expired is left untouched. An expired one loses both auth keys, and every other entry is kept as it was. |
| Auth.InitializeAuthPost | src/utils/auth.js:69-73 | Afterwards, either both auth keys are gone or the stored expiry lies in the future. |
| Auth.InitializeAuthIdempotent | src/utils/auth.js:69-73 | Running it twice is the same as running it once. |
| Auth.StoreThenGet | src/utils/auth.js:10-31 | A stored token reads back, and the expiry reads back as `exp * 1000`. |
| Auth.StoreWithoutExpNeverAuthenticates | src/utils/auth.js:11-14 | A payload without `exp` stores "NaN", which never authenticates. |
| Auth.StoreThenAuthenticated | src/utils/auth.js:7-48 | Right after storing, the user is authenticated iff the token is non-empty and `exp * 1000` is non-zero and after now. |
| JsNumber.IntToString | src/utils/auth.js:14 | An integer's text is digits, with a leading '-' exactly for a negative number. |
| JsNumber.ParseInt | src/utils/auth.js:31 | All-white-space text is NaN. A number is read only when the first non-space character is a sign or a digit. |
| JsNumber.ParseIntOfIntToString | src/utils/auth.js:14-31 | `parseInt` reads every integer's decimal text back as that integer. |
| JsNumber.ParseIntOfNaN | src/utils/auth.js:31 | `parseInt("NaN")` is NaN. |

## Left out

- Windows, menus, the login window, deep links and every other IPC channel of
  `public/electron.js`: they are UI plumbing outside the session controller.
- The capture backends (AudioTee, ffmpeg, naudiodon) and the speech service: they are
  foreign code. Their outcomes are event parameters. Audio chunks carry no bytes, and
  the sample-rate and encoding options are not modelled.
- The 1000 ms reconnect delay and real time: a timer is a pending event that may fire
  at any later step. `Date.now()` is a parameter of the auth functions.
- Interleaving inside `async` handlers across `await`: each handler runs as one atomic
  step, and `connect()` succeeds or fails within it.
- `mainWindow` is assumed to exist, so every `webContents.send` is emitted. Console
  logging is not modelled.
- The outer `catch` of `tts-start-audio` (public/electron.js:371-374) and throws from
  `transcriber(...)` creation: in the modelled code nothing reaches them except the
  dynamic imports, which are covered by the `clientLoads` and backend-outcome
  parameters.
- `AudioSource.stop()`/`kill()` failing: the code ignores those errors, so they have
  no effect.
- SessionProps.UnstartedAudioTeeStaysStored: that an AudioTee whose `start()` threw
  delivers no `data` events is an assumption about the foreign library
  (`SessionModel.Delivers`), not something the modelled code guarantees. The lemma
  proves that, under this assumption, its chunks reach no listener.
- `decodeToken` (src/utils/auth.js:58-66) and the base64/JSON decoding inside
  `storeToken`: their outcome is the `Payload` input of `Auth.StoreToken`.
- Auth.StoreToken: `exp * 1000` and `toString()` are exact integer arithmetic. Floating
  point rounding, a fractional or non-numeric `exp` other than a missing one, and
  exponent notation for huge values are not modelled. A missing `exp` is "NaN".
- JsNumber.ParseIntOfIntToString: states the round trip for integers only, because the
  model has no floating-point values.
- A throwing `localStorage.setItem` (quota exceeded) is not modelled.
- `src/config.js` and the React component state around the labels: they are outside
  the modelled helpers.
- Non-string transcripts, API keys and session fields: they are modelled as present
  or missing strings. A non-string `question` is the `OtherValue` case.
- Labels.SessionKey: `None` stands for `undefined`. A `null` `id` would print as
  "null" and a non-string one through its own `toString`; neither is modelled.
- Labels.Truncate: lengths and cuts count UTF-16 code units (`Utf16.Encode`). Dafny
  characters are Unicode scalar values, so input text holding a lone surrogate is not
  modelled. The suffix is the three code units U+201A U+00C4 U+00B6, exactly as the
  source bytes spell it, not a one-character ellipsis.
- The first transcriber's `close` clears `isStreaming` before it tests it, so it never
  reconnects (`SessionProps.FirstCloseNeverReconnects`).
- No silence filter exists in the modelled code: every chunk received while the
  session is live is forwarded.
- Markdown.RemovePlusJoins: what the pattern removes is pinned down for text with a
  single '+' (`OnePlusJoinRemoved`) and by the example `QuotedJoinExample`. For text
  with several joins, only "no '+' is left" and "no longer than the input" are stated.
- Markdown.RemoveQuotePlus: the same holds, with `OneQuotePlusRemoved` and
  `QuotePlusExample`.
- An `'error'` event that the naudiodon input did emit would find no listener and
  become an uncaught exception in the main process. It is not modelled, because the
  input is opened with `closeOnError: false` (public/electron.js:344), which makes
  naudiodon log its errors rather than emit them.

=== FILE: audio_devices.dfy ===
/**
 * Capture-device choice of the `tts-start-audio` handler off macOS: the first device
 * whose name matches `/stereo mix|loopback|output|realtek/i`, or the default input
 * (device id -1) when none does.
 */
module AudioDevices {
  import opened Options
  import opened JsText

  datatype Device = Device(name: string, id: int)

  const LoopbackPatterns: seq<string> := ["stereo mix", "loopback", "output", "realtek"]

  /** Device id that asks the capture library for the default input. */
  const DefaultDeviceId: int := -1

  /** `p` occurs in `s` starting at index `i`. */
  predicate OccursAt(s: string, p: string, i: nat) {
    i + |p| <= |s| && s[i..i + |p|] == p
  }

  /** `p` occurs somewhere in `s`. */
  ghost predicate Contains(s: string, p: string) {
    exists i: nat :: OccursAt(s, p, i)
  }

  /** Substring search, scanning start positions from `from` upwards. */
  function SearchFrom(s: string, p: string, from: nat): (b: bool)
    ensures b <==> exists i: nat :: from <= i && OccursAt(s, p, i)
    decreases |s| + 1 - from
  {
    if from + |p| > |s| then
      assert forall i: nat :: from <= i ==> !OccursAt(s, p, i);
      false
    else if s[from..from + |p|] == p then
      assert OccursAt(s, p, from);
      true
    else
      SearchFrom(s, p, from + 1)
  }

  /** What `/stereo mix|loopback|output|realtek/i.test(name)` answers. */
  ghost predicate IsLoopbackName(name: string) {
    exists k :: 0 <= k < |LoopbackPatterns| && Contains(LowerAsciiString(name), LoopbackPatterns[k])
  }

  /** Executable form of `IsLoopbackName`. */
  function MatchesLoopback(name: string): (b: bool)
    ensures b <==> IsLoopbackName(name)
  {
    var lower := LowerAsciiString(name);
    var hit := SearchFrom(lower, "stereo mix", 0) || SearchFrom(lower, "loopback", 0)
      || SearchFrom(lower, "output", 0) || SearchFrom(lower, "realtek", 0);
    assert LoopbackPatterns[0] == "stereo mix" && LoopbackPatterns[1] == "loopback";
    assert LoopbackPatterns[2] == "output" && LoopbackPatterns[3] == "realtek";
    hit
  }

  /** `devices.find(...)`, as the index of the device found. */
  function FindLoopback(devices: seq<Device>, from: nat): (r: Option<nat>)
    requires from <= |devices|
    ensures r.Some? ==> from <= r.value < |devices| && IsLoopbackName(devices[r.value].name)
    ensures forall j :: from <= j < |devices| && (r.None? || j < r.value) ==> !IsLoopbackName(devices[j].name)
    decreases |devices| - from
  {
    if from == |devices| then None
    else if MatchesLoopback(devices[from].name) then Some(from)
    else FindLoopback(devices, from + 1)
  }

  /** `targetDevice ? targetDevice.id : -1`. */
  function SelectDeviceId(devices: seq<Device>): (id: int)
    ensures id == DefaultDeviceId
      || exists i :: 0 <= i < |devices| && devices[i].id == id && IsLoopbackName(devices[i].name)
    ensures (forall j :: 0 <= j < |devices| ==> !IsLoopbackName(devices[j].name)) ==> id == DefaultDeviceId
  {
    match FindLoopback(devices, 0)
    case Some(i) => devices[i].id
    case None => DefaultDeviceId
  }

  /**
   * The chosen id is that of the first device with a loopback-like name, or -1 when no
   * device name matches.
   */
  lemma SelectDeviceIdIsFirstMatch(devices: seq<Device>)
    ensures (forall j :: 0 <= j < |devices| ==> !IsLoopbackName(devices[j].name))
      ==> SelectDeviceId(devices) == DefaultDeviceId
    ensures forall i ::
              && 0 <= i < |devices|
              && IsLoopbackName(devices[i].name)
              && (forall j :: 0 <= j < i ==> !IsLoopbackName(devices[j].name))
              ==> SelectDeviceId(devices) == devices[i].id
  {
  }

  /** Matching ignores ASCII letter case: "Realtek" names a loopback device. */
  lemma RealtekDeviceMatches()
    ensures IsLoopbackName("Realtek")
  {
    var lower := LowerAsciiString("Realtek");
    assert lower[0] == 'r' && lower[1] == 'e' && lower[2] == 'a' && lower[3] == 'l';
    assert lower[4] == 't' && lower[5] == 'e' && lower[6] == 'k';
    assert lower[0..7] == "realtek";
    assert OccursAt(lower, LoopbackPatterns[3], 0);
  }
}

=== FILE: auth.dfy ===
/**
 * `authUtils` of src/utils/auth.js: a login token and its expiry time kept in the
 * browser's `localStorage`. Storage is a map from keys to strings, the current time
 * (`Date.now()`, milliseconds) is a parameter, and decoding the token's payload is an
 * input to `StoreToken`.
 */
module Auth {
  import opened Options
  import opened JsNumber

  const TokenKey: string := "auth_token"
  const ExpiryKey: string := "auth_expiry"

  type Storage = map<string, string>

  /**
   * What `JSON.parse(atob(token.split('.')[1]))` gives: nothing usable (it throws), an
   * object without an `exp` claim, or an integer `exp` in seconds.
   */
  datatype Payload = Undecodable | WithoutExp | WithExp(exp: int)

  datatype Stored = Stored(ok: bool, storage: Storage)

  /** `localStorage.getItem(key)`. */
  function GetItem(st: Storage, key: string): (r: Option<string>) {
    if key in st then Some(st[key]) else None
  }

  /**
   * `storeToken(token)`: the payload is decoded before anything is written, so a failed
   * decode returns false with storage untouched; otherwise both keys are written and the
   * expiry is `exp * 1000` as a decimal string (`NaN * 1000` prints as "NaN").
   */
  function StoreToken(st: Storage, token: string, payload: Payload): (r: Stored)
    ensures payload.Undecodable? <==> !r.ok
    ensures !r.ok ==> r.storage == st
    ensures r.ok ==> r.storage.Keys == st.Keys + {TokenKey, ExpiryKey} && r.storage[TokenKey] == token
    ensures forall k :: k in st && k != TokenKey && k != ExpiryKey ==> k in r.storage && r.storage[k] == st[k]
  {
    match payload
    case Undecodable => Stored(false, st)
    case WithoutExp => Stored(true, st[TokenKey := token][ExpiryKey := "NaN"])
    case WithExp(exp) => Stored(true, st[TokenKey := token][ExpiryKey := IntToString(exp * 1000)])
  }

  /** `getToken()`. */
  function GetToken(st: Storage): (r: Option<string>)
    ensures r.Some? <==> TokenKey in st
  {
    GetItem(st, TokenKey)
  }

  /**
   * `getExpiry()`: `expiry ? parseInt(expiry) : null`. `None` is `null` (absent or empty
   * entry) or `NaN` (no leading digits): both are falsy to the callers.
   */
  function GetExpiry(st: Storage): (r: Option<int>)
    ensures ExpiryKey !in st ==> r.None?
  {
    match GetItem(st, ExpiryKey)
    case None => None
    case Some(text) => if text == "" then None else ParseInt(text)
  }

  /** `isTokenExpired(now)`: a falsy expiry (null, NaN or 0) counts as expired. */
  function IsTokenExpired(st: Storage, now: int): (r: bool)
    ensures ExpiryKey !in st ==> r
    ensures GetExpiry(st).Some? && GetExpiry(st).value != 0 ==> (r <==> now >= GetExpiry(st).value)
    ensures GetExpiry(st) == Some(0) ==> r
  {
    match GetExpiry(st)
    case None => true
    case Some(expiry) => expiry == 0 || now >= expiry
  }

  /**
   * `isAuthenticated(now)`: exactly when a non-empty token is stored and the stored
   * expiry parses to a non-zero time strictly after `now`.
   */
  function IsAuthenticated(st: Storage, now: int): (r: bool)
    ensures r <==>
      && TokenKey in st && st[TokenKey] != ""
      && GetExpiry(st).Some? && GetExpiry(st).value != 0 && now < GetExpiry(st).value
  {
    match GetToken(st)
    case None => false
    case Some(token) => token != "" && !IsTokenExpired(st, now)
  }

  /** `clearAuth()`. */
  function ClearAuth(st: Storage): (r: Storage)
    ensures TokenKey !in r && ExpiryKey !in r
    ensures forall k :: k != TokenKey && k != ExpiryKey ==> (k in r <==> k in st)
    ensures forall k :: k in r ==> r[k] == st[k]
  {
    st - {TokenKey, ExpiryKey}
  }

  /** `initializeAuth(now)`: an expired (or missing) login is wiped. */
  function InitializeAuth(st: Storage, now: int): (r: Storage)
    ensures !IsTokenExpired(st, now) ==> r == st
    ensures IsTokenExpired(st, now) ==> TokenKey !in r && ExpiryKey !in r
    ensures forall k :: k != TokenKey && k != ExpiryKey ==> (k in r <==> k in st) && (k in r ==> r[k] == st[k])
  {
    if IsTokenExpired(st, now) then ClearAuth(st) else st
  }

  // ---------------------------------------------------------------------------
  // Properties

  /** After `clearAuth` nobody is authenticated and the login counts as expired. */
  lemma ClearAuthLogsOut(st: Storage, now: int)
    ensures !IsAuthenticated(ClearAuth(st), now) && IsTokenExpired(ClearAuth(st), now)
  {
  }

  /**
   * After `initializeAuth` either both auth entries are gone or a stored expiry lies in
   * the future.
   */
  lemma InitializeAuthPost(st: Storage, now: int)
    ensures var r := InitializeAuth(st, now);
      || (TokenKey !in r && ExpiryKey !in r)
      || (GetExpiry(r).Some? && GetExpiry(r).value > now)
  {
  }

  /** `initializeAuth` twice is `initializeAuth` once. */
  lemma InitializeAuthIdempotent(st: Storage, now: int)
    ensures InitializeAuth(InitializeAuth(st, now), now) == InitializeAuth(st, now)
  {
    if IsTokenExpired(st, now) {
      var r := ClearAuth(st);
      assert IsTokenExpired(r, now);
      assert ClearAuth(r) == r;
    }
  }

  /** A stored token is read back, and the expiry reads back as `exp * 1000`. */
  lemma StoreThenGet(st: Storage, token: string, exp: int)
    ensures var r := StoreToken(st, token, WithExp(exp));
      && r.ok
      && GetToken(r.storage) == Some(token)
      && GetExpiry(r.storage) == Some(exp * 1000)
  {
    ParseIntOfIntToString(exp * 1000);
  }

  /** A token stored without an `exp` claim never authenticates ("NaN" is not a number). */
  lemma StoreWithoutExpNeverAuthenticates(st: Storage, token: string, now: int)
    ensures !IsAuthenticated(StoreToken(st, token, WithoutExp).storage, now)
  {
    var r := StoreToken(st, token, WithoutExp).storage;
    assert GetItem(r, ExpiryKey) == Some("NaN");
    ParseIntOfNaN();
    assert GetExpiry(r) == None;
  }

  /** Right after storing, the user is authenticated iff the token is non-empty and `exp * 1000` is a non-zero time after `now`. */
  lemma StoreThenAuthenticated(st: Storage, token: string, exp: int, now: int)
    ensures IsAuthenticated(StoreToken(st, token, WithExp(exp)).storage, now)
      <==> token != "" && exp != 0 && now < exp * 1000
  {
    StoreThenGet(st, token, exp);
  }
}

=== FILE: js_number.dfy ===
/**
 * Integer-valued `Number.prototype.toString()` and the global `parseInt(string)` of
 * JavaScript, as far as `auth_expiry` values need them. `parseInt` returning `NaN` is
 * `None`.
 */
module JsNumber {
  import opened Options
  import opened JsText

  function DigitChar(d: nat): (c: char)
    requires d < 10
    ensures '0' <= c <= '9'
  {
    (('0' as int) + d) as char
  }

  /** `c` is a digit of base `radix`: decimal digits always, letters a-f in base 16. */
  predicate IsDigit(c: char, radix: nat) {
    || '0' <= c <= '9'
    || (radix == 16 && ('a' <= c <= 'f' || 'A' <= c <= 'F'))
  }

  /** The value of a digit character (0 for any other character). */
  function DigitValue(c: char): (r: nat) {
    if '0' <= c <= '9' then c as int - '0' as int
    else if 'a' <= c <= 'f' then c as int - 'a' as int + 10
    else if 'A' <= c <= 'F' then c as int - 'A' as int + 10
    else 0
  }

  /** Every character of `d` is a decimal digit. */
  predicate AllDigits(d: string) {
    forall i :: 0 <= i < |d| ==> '0' <= d[i] <= '9'
  }

  /** Decimal digits of `n`, most significant first, without sign or leading zeros. */
  function NatToString(n: nat): (r: string)
    ensures |r| > 0
    ensures AllDigits(r)
    ensures n > 0 ==> r[0] != '0'
    decreases n
  {
    if n < 10 then [DigitChar(n)] else NatToString(n / 10) + [DigitChar(n % 10)]
  }

  /** `n.toString()` for an integral number. */
  function IntToString(n: int): (r: string)
    ensures |r| > 0
    ensures n < 0 ==> r[0] == '-' && |r| > 1 && AllDigits(r[1..])
    ensures n >= 0 ==> AllDigits(r)
  {
    if n < 0 then "-" + NatToString(-n) else NatToString(n)
  }

  /** Length of the longest prefix of `s` made of base-`radix` digits. */
  function DigitRun(s: string, radix: nat): (n: nat)
    ensures n <= |s|
    ensures forall i :: 0 <= i < n ==> IsDigit(s[i], radix)
    ensures n < |s| ==> !IsDigit(s[n], radix)
    decreases |s|
  {
    if s == [] || !IsDigit(s[0], radix) then 0
    else 1 + DigitRun(s[1..], radix)
  }

  /** The value of a string of base-`radix` digits, most significant first. */
  function DigitsValue(s: string, radix: nat): (r: nat)
    decreases |s|
  {
    if s == [] then 0
    else DigitsValue(s[..|s| - 1], radix) * radix + DigitValue(s[|s| - 1])
  }

  /** The magnitude part of `parseInt`: after the sign, an optional "0x" prefix, then digits. */
  function ParseMagnitude(s: string): (r: Option<nat>)
    ensures r.Some? ==> |s| > 0 && '0' <= s[0] <= '9'
    ensures |s| > 0 && '0' <= s[0] <= '9' && !(|s| >= 2 && s[0] == '0' && (s[1] == 'x' || s[1] == 'X')) ==> r.Some?
  {
    var hex := |s| >= 2 && s[0] == '0' && (s[1] == 'x' || s[1] == 'X');
    var radix := if hex then 16 else 10;
    var body := if hex then s[2..] else s;
    var n := DigitRun(body, radix);
    if n == 0 then None else Some(DigitsValue(body[..n], radix))
  }

  /**
   * `parseInt(s)`: leading white space is skipped, one '+' or '-' is read, "0x"/"0X"
   * selects base 16, and the longest run of digits that follows is the value; no digit
   * at all is `NaN`.
   */
  function ParseInt(s: string): (r: Option<int>)
    ensures AllSpace(s) ==> r.None?
    ensures r.Some? ==> var t := TrimStart(s);
      |t| > 0 && (t[0] == '-' || t[0] == '+' || '0' <= t[0] <= '9')
  {
    ParseSigned(TrimStart(s))
  }

  /** `parseInt` after the leading white space: an optional sign, then the magnitude. */
  function ParseSigned(t: string): (r: Option<int>)
    ensures r.Some? ==> |t| > 0 && (t[0] == '-' || t[0] == '+' || '0' <= t[0] <= '9')
    ensures r.Some? && r.value < 0 ==> t[0] == '-'
  {
    if |t| > 0 && t[0] == '-' then
      match ParseMagnitude(t[1..])
      case None => None
      case Some(m) => Some(-(m as int))
    else if |t| > 0 && t[0] == '+' then ParseMagnitude(t[1..])
    else ParseMagnitude(t)
  }

  // ---------------------------------------------------------------------------
  // Round trip

  lemma {:induction false} DigitsValueOfNatToString(n: nat)
    ensures DigitsValue(NatToString(n), 10) == n
    decreases n
  {
    var r := NatToString(n);
    if n >= 10 {
      DigitsValueOfNatToString(n / 10);
      assert r[..|r| - 1] == NatToString(n / 10);
    }
  }

  /** A string of decimal digits is all digit run. */
  lemma {:induction false} DigitRunOfDigits(d: string)
    requires AllDigits(d)
    ensures DigitRun(d, 10) == |d|
    decreases |d|
  {
    if d != [] {
      DigitRunOfDigits(d[1..]);
    }
  }

  /** A non-empty string of decimal digits reads back as its decimal value. */
  lemma ParseMagnitudeOfDigits(d: string)
    requires |d| > 0 && AllDigits(d)
    ensures ParseMagnitude(d) == Some(DigitsValue(d, 10))
  {
    assert |d| < 2 || (d[1] != 'x' && d[1] != 'X');
    DigitRunOfDigits(d);
    assert d[..|d|] == d;
  }

  /** `parseInt` of a non-empty digit string. */
  lemma ParseIntOfDigits(d: string)
    requires |d| > 0 && AllDigits(d)
    ensures ParseInt(d) == Some(DigitsValue(d, 10))
  {
    ParseMagnitudeOfDigits(d);
    NoLeadingSpace(d);
    assert ParseSigned(d) == ParseMagnitude(d);
  }

  /** A leading '-' negates whatever the rest parses to. */
  lemma ParseSignedMinus(t: string, m: nat)
    requires |t| > 0 && t[0] == '-' && ParseMagnitude(t[1..]) == Some(m)
    ensures ParseSigned(t) == Some(-(m as int))
  {
  }

  /** `parseInt` of '-' followed by text whose magnitude is `k`. */
  lemma ParseIntMinus(m: string, k: nat)
    requires |m| > 0 && m[0] == '-' && ParseMagnitude(m[1..]) == Some(k)
    ensures ParseInt(m) == Some(-(k as int))
  {
    NoLeadingSpace(m);
    assert ParseInt(m) == ParseSigned(m);
    ParseSignedMinus(m, k);
  }

  /** Neither a digit nor '-' is white space, so nothing is trimmed in front of a number. */
  lemma NoLeadingSpace(s: string)
    requires |s| > 0 && (s[0] == '-' || '0' <= s[0] <= '9')
    ensures TrimStart(s) == s
  {
    assert !IsSpace(s[0]);
    assert LeadingSpaces(s) == 0;
  }

  /** `parseInt("NaN")` is `NaN`: the text starts with neither a sign nor a digit. */
  lemma ParseIntOfNaN()
    ensures ParseInt("NaN") == None
  {
    var t := "NaN";
    assert !IsSpace(t[0]);
    assert LeadingSpaces(t) == 0;
    assert TrimStart(t) == t;
    assert !IsDigit(t[0], 10);
    assert DigitRun(t, 10) == 0;
    assert ParseMagnitude(t) == None;
  }

  /** `parseInt(n.toString()) === n` for every integer `n`. */
  lemma ParseIntOfIntToString(n: int)
    ensures ParseInt(IntToString(n)) == Some(n)
  {
    var mag: nat := if n < 0 then -n else n;
    var d := NatToString(mag);
    DigitsValueOfNatToString(mag);
    ParseMagnitudeOfDigits(d);
    var s := IntToString(n);
    if n < 0 {
      assert s[0] == '-' && s[1..] == d;
      ParseIntMinus(s, mag);
    } else {
      ParseIntOfDigits(d);
    }
  }
}

=== FILE: js_text.dfy ===
/**
 * The small part of JavaScript's string semantics that the modelled code relies on:
 * the white-space class shared by `String.prototype.trim` and the regular-expression
 * escape `\s`, trimming, and the ASCII case folding that a `/i` regular expression
 * applies to the ASCII patterns used here.
 */
module JsText {

  /** WhiteSpace and LineTerminator code points of ECMAScript (the set `\s` and `trim` use). */
  predicate IsSpace(c: char) {
    || c == '\t' || c == '\n' || c == '\U{000B}' || c == '\U{000C}' || c == '\r' || c == ' '
    || c == '\U{00A0}' || c == '\U{1680}' || ('\U{2000}' <= c <= '\U{200A}')
    || c == '\U{2028}' || c == '\U{2029}' || c == '\U{202F}' || c == '\U{205F}'
    || c == '\U{3000}' || c == '\U{FEFF}'
  }

  /** True when every character of `s` is white space (so `s.trim() === ''`). */
  predicate AllSpace(s: string) {
    forall i :: 0 <= i < |s| ==> IsSpace(s[i])
  }

  /** Length of the longest all-white-space prefix of `s`: what a greedy `\s*` consumes. */
  function LeadingSpaces(s: string): (n: nat)
    ensures n <= |s|
    ensures AllSpace(s[..n])
    ensures n < |s| ==> !IsSpace(s[n])
    decreases |s|
  {
    if s == [] || !IsSpace(s[0]) then 0
    else
      var k := LeadingSpaces(s[1..]);
      assert s[1..][..k] == s[1..k + 1];
      k + 1
  }

  /** Length of the longest all-white-space suffix of `s`. */
  function TrailingSpaces(s: string): (n: nat)
    ensures n <= |s|
    ensures AllSpace(s[|s| - n..])
    ensures n < |s| ==> !IsSpace(s[|s| - n - 1])
    decreases |s|
  {
    if s == [] || !IsSpace(s[|s| - 1]) then 0
    else
      var k := TrailingSpaces(s[..|s| - 1]);
      assert s[..|s| - 1][|s| - 1 - k..] == s[|s| - 1 - k..|s| - 1];
      k + 1
  }

  // `s.replace(/^\s*/, '')`, i.e. `trimStart`.
  function TrimStart(s: string): (r: string)
    ensures |r| <= |s|
    ensures r == s[|s| - |r|..]
    ensures AllSpace(s[..|s| - |r|])
    ensures r == [] || !IsSpace(r[0])
  {
    s[LeadingSpaces(s)..]
  }

  // `s.replace(/\s*$/, '')`, i.e. `trimEnd`.
  function TrimEnd(s: string): (r: string)
    ensures |r| <= |s|
    ensures r == s[..|r|]
    ensures AllSpace(s[|r|..])
    ensures r == [] || !IsSpace(r[|r| - 1])
  {
    s[..|s| - TrailingSpaces(s)]
  }

  /** `String.prototype.trim`. */
  function Trim(s: string): (r: string)
    ensures |r| <= |s|
    ensures r == [] || (!IsSpace(r[0]) && !IsSpace(r[|r| - 1]))
  {
    TrimEnd(TrimStart(s))
  }

  /**
   * `trim` removes only white space: its result is a contiguous piece of `s` with nothing
   * but white space before and after it.
   */
  lemma TrimIsMiddle(s: string)
    ensures var i, r := LeadingSpaces(s), Trim(s);
      && i + |r| <= |s| && r == s[i..i + |r|] && AllSpace(s[..i]) && AllSpace(s[i + |r|..])
  {
    var i := LeadingSpaces(s);
    var t := TrimStart(s);
    var r := TrimEnd(t);
    assert t == s[i..];
    assert r == t[..|r|] && AllSpace(t[|r|..]);
    assert t[|r|..] == s[i + |r|..];
  }

  /** `s.trim() === ''` holds exactly when `s` is all white space. */
  lemma {:induction false} TrimEmptyIffAllSpace(s: string)
    ensures Trim(s) == [] <==> AllSpace(s)
  {
    var n := LeadingSpaces(s);
    if n == |s| {
      assert s[..n] == s;
    } else {
      assert !IsSpace(s[n]);
      assert TrimStart(s) != [];
      assert TrimStart(s)[0] == s[n];
    }
  }

  /** ASCII upper case to lower case; every other character is kept. */
  function LowerAscii(c: char): (r: char)
    ensures 'A' <= c <= 'Z' ==> r as int == c as int + 32
    ensures !('A' <= c <= 'Z') ==> r == c
  {
    if 'A' <= c <= 'Z' then (c as int + 32) as char else c
  }

  /**
   * Character-wise `LowerAscii`. For patterns made of ASCII lower-case letters, digits,
   * spaces and '.', comparing `LowerAsciiString(s)` with the pattern is exactly what a
   * JavaScript `/i` regular expression without the `u` flag does: its case folding never
   * maps a non-ASCII character onto an ASCII one.
   */
  function LowerAsciiString(s: string): (r: string)
    ensures |r| == |s|
    ensures forall i :: 0 <= i < |s| ==> r[i] == LowerAscii(s[i])
  {
    seq(|s|, i requires 0 <= i < |s| => LowerAscii(s[i]))
  }

  /** Trimming skips exactly a white-space run that stands before non-space text. */
  lemma TrimStartSkips(pre: string, rest: string)
    requires AllSpace(pre) && rest != [] && !IsSpace(rest[0])
    ensures TrimStart(pre + rest) == rest
  {
    var s := pre + rest;
    assert s[|pre|..] == rest;
  }

  /** Trimming the end drops exactly a white-space run that follows non-space text. */
  lemma TrimEndSkips(rest: string, post: string)
    requires AllSpace(post) && rest != [] && !IsSpace(rest[|rest| - 1])
    ensures TrimEnd(rest + post) == rest
  {
    var s := rest + post;
    assert s[..|rest|] == rest;
  }

  /** Text that neither starts nor ends with white space is its own trim. */
  lemma TrimNoSpaceEnds(s: string)
    requires s != [] && !IsSpace(s[0]) && !IsSpace(s[|s| - 1])
    ensures Trim(s) == s
  {
    TrimStartSkips([], s);
    assert [] + s == s;
    TrimEndSkips(s, []);
    assert s + [] == s;
  }
}

=== FILE: labels.dfy ===
/**
 * The display-label expressions of src/App.js: truncation of a long label to a fixed
 * width followed by an ellipsis suffix, the interaction-history label built from a
 * question, and the session label built from an id, a company and a résumé file name.
 */
module Labels {
  import opened Options
  import opened JsText
  import opened Utf16

  /**
   * The suffix literal appended by every truncation. In src/App.js it is the three
   * characters U+201A U+00C4 U+00B6 (the UTF-8 bytes of '…' read as Mac Roman), so it is
   * modelled as written: three code units.
   */
  const Ellipsis: seq<CodeUnit> := [0x201A, 0x00C4, 0x00B6]

  /** The label shown for a missing question. */
  const NoQuestionText: string := "(no question)"

  /**
   * `label.length > n ? label.slice(0, n) + Ellipsis : label`, on the UTF-16 code units
   * that `length` and `slice` count. A cut may fall between the two halves of a
   * surrogate pair, as it does in JavaScript.
   */
  function Truncate(u: seq<CodeUnit>, n: nat): (r: seq<CodeUnit>)
    ensures |r| <= n + |Ellipsis|
    ensures |u| <= n ==> r == u
    ensures |u| > n ==> |r| == n + |Ellipsis| && r[..n] == u[..n] && r[n..] == Ellipsis
  {
    if |u| > n then u[..n] + Ellipsis else u
  }

  /** The value of `item?.question`: absent, a string, or some other (truthy) value. */
  datatype Question = NoQuestion | TextQuestion(text: string) | OtherValue

  /**
   * `(raw && typeof raw === 'string') ? Truncate(raw, width) : '(no question)'`
   * where `raw = item?.question || ''`.
   */
  function InteractionLabel(q: Question, width: nat): (r: seq<CodeUnit>)
    ensures r == Encode(NoQuestionText) || 0 < |r| <= width + |Ellipsis|
  {
    if q.TextQuestion? && q.text != "" then Truncate(Encode(q.text), width) else Encode(NoQuestionText)
  }

  /** `v || fallback` for a value that is a string or missing. */
  function OrDefault(v: Option<string>, fallback: string): (r: string)
    ensures v.Some? && v.value != "" ==> r == v.value
    ensures v.None? || v.value == "" ==> r == fallback
  {
    if v.Some? && v.value != "" then v.value else fallback
  }

  /** True when `name` ends with ".pdf" in any mix of letter case. */
  predicate EndsWithPdf(name: string) {
    |name| >= 4 && LowerAsciiString(name[|name| - 4..]) == ".pdf"
  }

  /** `name.replace(/\.pdf$/i, '')`: one trailing ".pdf", in any letter case, is dropped. */
  function StripPdf(name: string): (r: string)
    ensures EndsWithPdf(name) ==> |r| + 4 == |name| && name == r + name[|name| - 4..]
    ensures !EndsWithPdf(name) ==> r == name
  {
    if EndsWithPdf(name) then name[..|name| - 4] else name
  }

  /** The fields of a session record that the label reads. */
  datatype Session = Session(
    sessionId: Option<string>,
    id: Option<string>,
    companyName: Option<string>,
    resumeFileName: Option<string>)

  /**
   * `session.sessionId || session.id`, rendered by a template literal: a falsy
   * `sessionId` gives way to `id` whatever `id` is, and a missing `id` prints as
   * "undefined".
   */
  function SessionKey(s: Session): (r: string)
    ensures s.sessionId.Some? && s.sessionId.value != "" ==> r == s.sessionId.value
    ensures (s.sessionId.None? || s.sessionId.value == "") && s.id.Some? ==> r == s.id.value
    ensures (s.sessionId.None? || s.sessionId.value == "") && s.id.None? ==> r == "undefined"
  {
    if s.sessionId.Some? && s.sessionId.value != "" then s.sessionId.value
    else if s.id.Some? then s.id.value
    else "undefined"
  }

  /** `[${sessionId}] - ${companyName} - ${cleanFileName}` before truncation. */
  function SessionLabelText(s: Session): (r: string)
    ensures |r| > |SessionKey(s)| + 8
    ensures r[..|SessionKey(s)| + 5] == "[" + SessionKey(s) + "] - "
    ensures s.companyName.Some? && s.companyName.value != ""
      ==> |SessionKey(s)| + 8 + |s.companyName.value| <= |r|
          && r[|SessionKey(s)| + 5..|SessionKey(s)| + 5 + |s.companyName.value|] == s.companyName.value
  {
    var company := OrDefault(s.companyName, "Unknown Company");
    var file := OrDefault(s.resumeFileName, "No Resume");
    "[" + SessionKey(s) + "] - " + company + " - " + StripPdf(file)
  }

  /** The label shown for a session: the text above truncated to `width` code units. */
  function SessionLabel(s: Session, width: nat): (r: seq<CodeUnit>)
    ensures |r| <= width + |Ellipsis|
    ensures |Encode(SessionLabelText(s))| <= width ==> r == Encode(SessionLabelText(s))
  {
    Truncate(Encode(SessionLabelText(s)), width)
  }

  // ---------------------------------------------------------------------------
  // Properties

  /** A non-empty string question of at most `width` code units is shown unchanged. */
  lemma ShortQuestionUnchanged(question: string, width: nat)
    requires question != "" && |Encode(question)| <= width
    ensures InteractionLabel(TextQuestion(question), width) == Encode(question)
  {
  }

  /**
   * A longer question keeps its first `width` code units and gets the suffix, so the
   * label is `width + |Ellipsis|` code units long (53 for width 50).
   */
  lemma LongQuestionTruncated(question: string, width: nat)
    requires |Encode(question)| > width
    ensures var r := InteractionLabel(TextQuestion(question), width);
      && |r| == width + |Ellipsis|
      && r == Encode(question)[..width] + Ellipsis
  {
    var r := InteractionLabel(TextQuestion(question), width);
    assert r == r[..width] + r[width..];
  }

  /**
   * On a question without characters above U+FFFF the cut counts characters: the label
   * is the question itself, or its first `width` characters and the suffix.
   */
  lemma BmpQuestionCutByCharacters(question: string, width: nat)
    requires question != "" && AllBmp(question)
    ensures |question| <= width ==> InteractionLabel(TextQuestion(question), width) == Encode(question)
    ensures |question| > width ==>
      InteractionLabel(TextQuestion(question), width) == Encode(question[..width]) + Ellipsis
  {
    EncodePrefixAllBmp(question, if |question| > width then width else |question|);
  }

  /**
   * 26 emoji are 52 code units: the width-50 label cuts them although they are only 26
   * characters.
   */
  lemma WideQuestionCut()
    ensures var q := seq(26, _ => '\U{1F600}');
      && |q| == 26 && |Encode(q)| == 52
      && InteractionLabel(TextQuestion(q), 50) == Encode(q)[..50] + Ellipsis
  {
    var q := seq(26, _ => '\U{1F600}');
    EncodeNoneBmp(q);
  }

  /** A cut inside a surrogate pair keeps the lone high surrogate, as `slice` does. */
  lemma CutSplitsSurrogatePair()
    ensures InteractionLabel(TextQuestion("\U{1F600}"), 1) == [0xD83D] + Ellipsis
  {
    assert Encode("\U{1F600}") == [0xD83D, 0xDE00];
  }

  /** An empty, missing or non-string question gives the placeholder label. */
  lemma MissingQuestionPlaceholder(q: Question, width: nat)
    requires q.NoQuestion? || q.OtherValue? || q == TextQuestion("")
    ensures InteractionLabel(q, width) == Encode(NoQuestionText)
  {
  }

  /** Appending ".pdf" in any letter case and stripping it gives the name back. */
  lemma StripPdfRoundTrip(base: string, ext: string)
    requires |ext| == 4 && LowerAsciiString(ext) == ".pdf"
    ensures StripPdf(base + ext) == base
  {
    var name := base + ext;
    assert name[|name| - 4..] == ext;
    assert name[..|name| - 4] == base;
  }

  /** Only the last ".pdf" goes: "a.pdf.pdf" becomes "a.pdf". */
  lemma StripPdfOnlyOnce()
    ensures StripPdf("a.pdf.pdf") == "a.pdf"
    ensures StripPdf("report.PDF") == "report"
    ensures StripPdf("notes.pdfx") == "notes.pdfx"
  {
    assert LowerAsciiString("a.pdf.pdf"[5..]) == ".pdf";
    assert LowerAsciiString("report.PDF"[6..]) == ".pdf";
    assert LowerAsciiString("notes.pdfx"[6..])[4 - 1] == 'x';
  }

  /** "No Resume" does not end in ".pdf", so the file placeholder is shown as is. */
  lemma NoResumeKept()
    ensures StripPdf("No Resume") == "No Resume"
  {
    var file := "No Resume";
    var tail := file[|file| - 4..];
    assert tail[0] == 's';
    assert LowerAsciiString(tail)[0] == 's';
  }

  /** Missing or empty company and file fall back to their placeholders. */
  lemma SessionLabelDefaults(s: Session)
    requires s.companyName.None? || s.companyName == Some("")
    requires s.resumeFileName.None? || s.resumeFileName == Some("")
    ensures SessionLabelText(s) == "[" + SessionKey(s) + "] - " + "Unknown Company" + " - " + "No Resume"
  {
    NoResumeKept();
  }

  /**
   * Whenever the width leaves room for `[key] - `, the shown label starts with exactly
   * those code units: truncation never hides the session key.
   */
  lemma SessionKeyShown(s: Session, width: nat)
    requires |Encode("[" + SessionKey(s) + "] - ")| <= width
    ensures var p := Encode("[" + SessionKey(s) + "] - ");
      |p| <= |SessionLabel(s, width)| && SessionLabel(s, width)[..|p|] == p
  {
    var text := SessionLabelText(s);
    var key := "[" + SessionKey(s) + "] - ";
    assert text == key + text[|key|..];
    EncodeAppend(key, text[|key|..]);
  }
}

=== FILE: markdown.dfy ===
/**
 * `formatLLMMarkdown` of src/App.js: a fixed pipeline that trims a model reply,
 * strips one layer of Markdown code-fence wrapping, and undoes JavaScript string
 * escaping and `'a' + 'b'` concatenation syntax. Each regular-expression
 * replacement is one function over `string`.
 */
module Markdown {
  import opened Options
  import opened JsText

  const Fence: string := "```"
  const MarkdownFence: string := "```markdown"

  // `s.replace(/^<prefix>\s*/, '')`: an anchored prefix and the white space after it.
  function StripLeadingFence(s: string, prefix: string): (r: string)
    requires |prefix| > 0 && prefix[0] == '`'
    ensures |r| <= |s|
    ensures r == s[|s| - |r|..]
    ensures '`' !in s ==> r == s
    ensures !(prefix <= s) ==> r == s
    ensures prefix <= s ==>
      && |r| <= |s| - |prefix|
      && AllSpace(s[|prefix|..|s| - |r|])
      && (r == [] || !IsSpace(r[0]))
  {
    if prefix <= s then
      var r := TrimStart(s[|prefix|..]);
      assert s[|prefix|..|s| - |r|] == s[|prefix|..][..|s| - |prefix| - |r|];
      r
    else s
  }

  /**
   * `s.replace(/\s*```$/, '')`. The fence must be the last three characters; the leftmost
   * match then starts at the beginning of the white-space run in front of it, so the
   * whole run goes too.
   */
  function StripTrailingFence(s: string): (r: string)
    ensures |r| <= |s|
    ensures r == s[..|r|]
    ensures '`' !in s ==> r == s
    ensures r != s ==> |s| >= 3 && s[|s| - 3..] == Fence && |r| <= |s| - 3 && AllSpace(s[|r|..|s| - 3])
    ensures |s| >= 3 && s[|s| - 3..] == Fence ==> |r| <= |s| - 3 && (r == [] || !IsSpace(r[|r| - 1]))
  {
    if |s| >= 3 && s[|s| - 3..] == Fence then
      assert s[|s| - 1] == s[|s| - 3..][2] == '`';
      var r := TrimEnd(s[..|s| - 3]);
      assert s[|r|..|s| - 3] == s[..|s| - 3][|r|..];
      r
    else s
  }

  /**
   * `s.replace(/<a><b>/g, c)` for a two-character pattern: scanned left to right, each
   * non-overlapping occurrence becomes the single character `c`.
   */
  function ReplacePair(s: string, a: char, b: char, c: char): (r: string)
    ensures |r| <= |s|
    ensures a !in s ==> r == s
    decreases |s|
  {
    if |s| >= 2 && s[0] == a && s[1] == b then [c] + ReplacePair(s[2..], a, b, c)
    else if s == [] then []
    else [s[0]] + ReplacePair(s[1..], a, b, c)
  }

  /** Length of a match of `/\s*\+\s*'?/` anchored at the start of `s`, if there is one. */
  function PlusJoinAt(s: string): (m: Option<nat>)
    ensures m.Some? ==> 0 < m.value <= |s| && '+' in s[..m.value]
    ensures |s| > 0 && s[0] == '+' ==> m.Some?
  {
    var k := LeadingSpaces(s);
    if k < |s| && s[k] == '+' then
      var j := k + 1 + LeadingSpaces(s[k + 1..]);
      var n := if j < |s| && s[j] == '\'' then j + 1 else j;
      assert s[..n][k] == '+';
      Some(n)
    else None
  }

  /**
   * `s.replace(/\s*\+\s*'?/g, '')`: every match is deleted; where no match starts, the
   * character is kept and the scan moves on by one.
   */
  function RemovePlusJoins(s: string): (r: string)
    ensures |r| <= |s|
    ensures '+' !in r
    ensures '+' !in s ==> r == s
    decreases |s|
  {
    if s == [] then []
    else match PlusJoinAt(s)
      case Some(n) => RemovePlusJoins(s[n..])
      case None =>
        NotInTail(s, '+');
        [s[0]] + RemovePlusJoins(s[1..])
  }

  /** Length of a match of `/\s*\+/` anchored at the start of `s`, if there is one. */
  function SpacedPlusAt(s: string): (m: Option<nat>)
    ensures m.Some? ==> 0 < m.value <= |s| && s[m.value - 1] == '+'
    ensures |s| > 0 && s[0] == '+' ==> m.Some?
  {
    var k := LeadingSpaces(s);
    if k < |s| && s[k] == '+' then Some(k + 1) else None
  }

  /** Length of a match of `/'?\s*\+/` anchored at the start of `s`, if there is one. */
  function QuotePlusAt(s: string): (m: Option<nat>)
    ensures m.Some? ==> 0 < m.value <= |s| && s[m.value - 1] == '+'
    ensures |s| > 0 && s[0] == '+' ==> m.Some?
  {
    if |s| > 0 && s[0] == '\'' && SpacedPlusAt(s[1..]).Some? then
      Some(1 + SpacedPlusAt(s[1..]).value)
    else SpacedPlusAt(s)
  }

  /** `s.replace(/'?\s*\+/g, '')`. */
  function RemoveQuotePlus(s: string): (r: string)
    ensures |r| <= |s|
    ensures '+' !in r
    ensures '+' !in s ==> r == s
    decreases |s|
  {
    if s == [] then []
    else match QuotePlusAt(s)
      case Some(n) => RemoveQuotePlus(s[n..])
      case None =>
        NotInTail(s, '+');
        [s[0]] + RemoveQuotePlus(s[1..])
  }

  /** A character absent from `s` is absent from its tail. */
  lemma NotInTail(s: string, x: char)
    requires s != []
    ensures x !in s ==> x !in s[1..]
  {
    if x !in s {
      forall i | 0 <= i < |s[1..]| ensures s[1..][i] != x {
        assert s[1..][i] == s[i + 1];
      }
    }
  }

  /** The replacement steps after trimming, in source order. */
  function CleanTrimmed(t: string): (r: string)
    ensures |r| <= |t|
    ensures '+' !in r
    ensures '\\' !in t && '+' !in t && '`' !in t ==> r == t
  {
    var fenced := StripTrailingFence(StripLeadingFence(t, MarkdownFence));
    var unfenced := StripTrailingFence(StripLeadingFence(fenced, Fence));
    var newlines := ReplacePair(unfenced, '\\', 'n', '\n');
    var quotes := ReplacePair(newlines, '\\', '\'', '\'');
    var joined := RemovePlusJoins(quotes);
    var joinedAgain := RemoveQuotePlus(joined);
    var dquotes := ReplacePair(joinedAgain, '\\', '"', '"');
    ReplacePairKeepsNoPlus(joinedAgain, '\\', '"', '"');
    ReplacePairKeepsNoPlus(dquotes, '\\', '\\', '\\');
    ReplacePair(dquotes, '\\', '\\', '\\')
  }

  /**
   * `formatLLMMarkdown(llmResponse)`. `None` stands for `null`/`undefined`; together with
   * the empty string these are the falsy inputs.
   */
  function FormatLLMMarkdown(reply: Option<string>): (r: string)
    ensures reply.None? || reply.value == "" ==> r == ""
  {
    if reply.None? || reply.value == "" then "" else CleanTrimmed(Trim(reply.value))
  }

  // ---------------------------------------------------------------------------
  // Properties

  /** Replacing a digraph by a character other than '+' does not introduce a '+'. */
  lemma {:induction false} ReplacePairKeepsNoPlus(s: string, a: char, b: char, c: char)
    requires '+' !in s && c != '+'
    ensures '+' !in ReplacePair(s, a, b, c)
    decreases |s|
  {
    if |s| >= 2 && s[0] == a && s[1] == b {
      assert '+' !in s[2..] by {
        forall i | 0 <= i < |s[2..]| ensures s[2..][i] != '+' {
          assert s[2..][i] == s[i + 2];
        }
      }
      ReplacePairKeepsNoPlus(s[2..], a, b, c);
    } else if s != [] {
      assert '+' !in s[1..] by {
        forall i | 0 <= i < |s[1..]| ensures s[1..][i] != '+' {
          assert s[1..][i] == s[i + 1];
        }
      }
      ReplacePairKeepsNoPlus(s[1..], a, b, c);
    }
  }

  /** `RemovePlusJoins` where no match starts: the first character is kept. */
  lemma PlusJoinsCopyHead(s: string)
    requires s != [] && PlusJoinAt(s).None?
    ensures RemovePlusJoins(s) == [s[0]] + RemovePlusJoins(s[1..])
  {
  }

  /** `RemovePlusJoins` where a match of length `n` starts: the scan resumes at `y`. */
  lemma PlusJoinsResume(s: string, n: nat, y: string)
    requires PlusJoinAt(s) == Some(n) && s[n..] == y
    ensures RemovePlusJoins(s) == RemovePlusJoins(y)
  {
  }

  /** `RemoveQuotePlus` where no match starts: the first character is kept. */
  lemma QuotePlusCopyHead(s: string)
    requires s != [] && QuotePlusAt(s).None?
    ensures RemoveQuotePlus(s) == [s[0]] + RemoveQuotePlus(s[1..])
  {
  }

  /** `RemoveQuotePlus` where a match of length `n` starts: the match is deleted. */
  lemma QuotePlusSkipMatch(s: string, n: nat)
    requires s != [] && QuotePlusAt(s) == Some(n)
    ensures RemoveQuotePlus(s) == RemoveQuotePlus(s[n..])
  {
  }

  /** Concatenation is associative. */
  lemma AppendAssoc(a: string, b: string, c: string)
    ensures a + (b + c) == (a + b) + c
  {
  }

  /** Splitting off the first character of a concatenation. */
  lemma ConsAppend(x: string, rest: string)
    requires x != []
    ensures (x + rest)[0] == x[0] && (x + rest)[1..] == x[1..] + rest
    ensures forall t: string :: [x[0]] + (x[1..] + t) == x + t
  {
    forall t: string ensures [x[0]] + (x[1..] + t) == x + t {
      assert [x[0]] + x[1..] == x;
      AppendAssoc([x[0]], x[1..], t);
    }
  }

  /**
   * From inside a '+'-free text that ends in a non-space, the white-space run stops at a
   * character of that text, which is not '+': neither `\s*\+` nor `\s*\+\s*'?` matches.
   */
  lemma NoPlusInside(x: string, rest: string, i: nat)
    requires '+' !in x && i < |x| && !IsSpace(x[|x| - 1])
    ensures PlusJoinAt((x + rest)[i..]).None? && SpacedPlusAt((x + rest)[i..]).None?
  {
    var s := (x + rest)[i..];
    var k := LeadingSpaces(s);
    assert s[|x| - 1 - i] == x[|x| - 1];
    if k >= |x| - i {
      assert false;
    }
    assert s[k] == x[i + k];
  }

  /** `\s*` consumes exactly a white-space run that is followed by a non-space character. */
  lemma SkipSpaces(sp: string, rest: string)
    requires AllSpace(sp) && rest != [] && !IsSpace(rest[0])
    ensures LeadingSpaces(sp + rest) == |sp|
  {
    var s := sp + rest;
    assert s[|sp|] == rest[0];
  }

  /** `\s*` consumes all of an all-white-space text. */
  lemma AllSpaceLeading(sp: string)
    requires AllSpace(sp)
    ensures LeadingSpaces(sp) == |sp|
  {
  }

  /**
   * Text without '+' whose last character is not white space holds no match of the join
   * pattern at any of its positions, so the scan copies it and resumes after it.
   */
  lemma {:induction false} PlusJoinsKeepPrefix(x: string, rest: string)
    requires '+' !in x && (x == [] || !IsSpace(x[|x| - 1]))
    ensures RemovePlusJoins(x + rest) == x + RemovePlusJoins(rest)
    decreases |x|
  {
    if x == [] {
      assert x + rest == rest;
    } else {
      var s := x + rest;
      NoPlusInside(x, rest, 0);
      assert s[0..] == s;
      PlusJoinsCopyHead(s);
      ConsAppend(x, rest);
      NotInTail(x, '+');
      PlusJoinsKeepPrefix(x[1..], rest);
    }
  }

  /** After the '+': the white space, then the quote exactly when there is one. */
  lemma AfterPlus(post: string, q: string, y: string)
    requires AllSpace(post) && (q == [] || q == ['\''])
    requires y == [] || (!IsSpace(y[0]) && (q != [] || y[0] != '\''))
    ensures var t := post + (q + y);
      && LeadingSpaces(t) == |post|
      && ((|post| < |t| && t[|post|] == '\'') <==> q != [])
  {
    var t := post + (q + y);
    if q != [] {
      SkipSpaces(post, q + y);
      assert t[|post|] == '\'';
    } else if y != [] {
      assert q + y == y;
      SkipSpaces(post, y);
      assert t[|post|] == y[0];
    } else {
      assert t == post;
      AllSpaceLeading(post);
    }
  }

  /** The '+' sits right after the leading white space. */
  lemma PlusAfterSpaces(pre: string, tail: string)
    requires AllSpace(pre)
    ensures var s := pre + (['+'] + tail);
      LeadingSpaces(s) == |pre| && s[|pre|] == '+' && s[|pre| + 1..] == tail
  {
    SkipSpaces(pre, ['+'] + tail);
    var s := pre + (['+'] + tail);
    assert s[|pre|..] == ['+'] + tail;
  }

  /** One match of `/\s*\+\s*'?/` at the start of the text is deleted with all of it. */
  lemma PlusJoinAtJoin(pre: string, post: string, q: string, y: string, s: string)
    requires AllSpace(pre) && AllSpace(post) && (q == [] || q == ['\''])
    requires y == [] || (!IsSpace(y[0]) && (q != [] || y[0] != '\''))
    requires s == pre + (['+'] + (post + (q + y)))
    ensures PlusJoinAt(s) == Some(|pre| + 1 + |post| + |q|)
  {
    PlusAfterSpaces(pre, post + (q + y));
    AfterPlus(post, q, y);
  }

  /** A join at the start of the text is deleted and the scan resumes after it. */
  lemma LeadingJoinDeleted(pre: string, post: string, q: string, y: string, rest: string)
    requires AllSpace(pre) && AllSpace(post) && (q == [] || q == ['\''])
    requires y == [] || (!IsSpace(y[0]) && (q != [] || y[0] != '\''))
    requires rest == pre + (['+'] + (post + (q + y)))
    ensures RemovePlusJoins(rest) == RemovePlusJoins(y)
  {
    var n := |pre| + 1 + |post| + |q|;
    PlusJoinAtJoin(pre, post, q, y, rest);
    JoinTail(pre, post, q, y);
    PlusJoinsResume(rest, n, y);
  }

  /** The parts of one join, regrouped. */
  lemma JoinParts(x: string, pre: string, post: string, q: string, y: string)
    ensures x + pre + ['+'] + post + q + y == x + (pre + (['+'] + (post + (q + y))))
  {
  }

  /** What follows a join. */
  lemma JoinTail(pre: string, post: string, q: string, y: string)
    ensures (pre + (['+'] + (post + (q + y))))[|pre| + 1 + |post| + |q|..] == y
  {
  }

  /**
   * A single `' + '` join between two pieces of text without '+' is deleted together
   * with the white space on both sides of the '+' and one quote after it: `x + y` is
   * what is left.
   */
  lemma OnePlusJoinRemoved(x: string, pre: string, post: string, q: string, y: string)
    requires '+' !in x && '+' !in y && (x == [] || !IsSpace(x[|x| - 1]))
    requires AllSpace(pre) && AllSpace(post) && (q == [] || q == ['\''])
    requires y == [] || (!IsSpace(y[0]) && (q != [] || y[0] != '\''))
    ensures RemovePlusJoins(x + pre + ['+'] + post + q + y) == x + y
  {
    var rest := pre + (['+'] + (post + (q + y)));
    JoinParts(x, pre, post, q, y);
    PlusJoinsKeepPrefix(x, rest);
    LeadingJoinDeleted(pre, post, q, y, rest);
    var whole := x + pre + ['+'] + post + q + y;
    assert whole == x + rest;
    assert RemovePlusJoins(rest) == y;
    assert RemovePlusJoins(whole) == x + y;
  }

  /** `'a' + 'b'` becomes `'a'b'`: the first quote of the second string goes with the '+'. */
  lemma QuotedJoinExample()
    ensures RemovePlusJoins("'a' + 'b'") == "'a'b'"
  {
    var x := "'a'";
    var y := "b'";
    assert x[|x| - 1] == '\'' && y[0] == 'b';
    OnePlusJoinRemoved(x, " ", " ", "'", y);
    assert x + " " + ['+'] + " " + "'" + y == "'a' + 'b'";
    assert x + y == "'a'b'";
  }

  /** No match of `/'?\s*\+/` starts inside a '+'-free text that ends in neither a space nor a quote. */
  lemma NoQuotePlusInside(x: string, rest: string, i: nat)
    requires '+' !in x && i < |x| && !IsSpace(x[|x| - 1]) && x[|x| - 1] != '\''
    ensures QuotePlusAt((x + rest)[i..]).None?
  {
    var s := (x + rest)[i..];
    NoPlusInside(x, rest, i);
    if s[0] == '\'' {
      assert i + 1 < |x|;
      NoPlusInside(x, rest, i + 1);
      assert s[1..] == (x + rest)[i + 1..];
    }
  }

  /**
   * Text without '+' whose last character is neither white space nor a quote holds no
   * match of `/'?\s*\+/` at any of its positions, so the scan copies it.
   */
  lemma {:induction false} QuotePlusKeepsPrefix(x: string, rest: string)
    requires '+' !in x && (x == [] || (!IsSpace(x[|x| - 1]) && x[|x| - 1] != '\''))
    ensures RemoveQuotePlus(x + rest) == x + RemoveQuotePlus(rest)
    decreases |x|
  {
    if x == [] {
      assert x + rest == rest;
    } else {
      var s := x + rest;
      NoQuotePlusInside(x, rest, 0);
      assert s[0..] == s;
      QuotePlusCopyHead(s);
      ConsAppend(x, rest);
      NotInTail(x, '+');
      QuotePlusKeepsPrefix(x[1..], rest);
    }
  }

  /** White space and then a '+' are one match of `/\s*\+/`, which does not start with a quote. */
  lemma SpacedPlusAtJoin(pre: string, y: string, t: string)
    requires AllSpace(pre)
    requires t == pre + (['+'] + y)
    ensures SpacedPlusAt(t) == Some(|pre| + 1) && t[0] != '\''
  {
    PlusAfterSpaces(pre, y);
    if pre != [] {
      assert t[0] == pre[0];
    }
  }

  /** One match of `/'?\s*\+/` at the start of the text is deleted with all of it. */
  lemma QuotePlusAtJoin(q: string, pre: string, y: string, s: string)
    requires AllSpace(pre) && (q == [] || q == ['\''])
    requires s == q + (pre + (['+'] + y))
    ensures QuotePlusAt(s) == Some(|q| + |pre| + 1)
  {
    var t := pre + (['+'] + y);
    SpacedPlusAtJoin(pre, y, t);
    if q != [] {
      assert s[0] == '\'' && s[1..] == t;
    } else {
      assert s == t;
    }
  }

  /** A quote-plus at the start of the text is deleted and the scan resumes after it. */
  lemma LeadingQuotePlusDeleted(q: string, pre: string, y: string, rest: string)
    requires AllSpace(pre) && (q == [] || q == ['\''])
    requires rest == q + (pre + (['+'] + y))
    ensures RemoveQuotePlus(rest) == RemoveQuotePlus(y)
  {
    QuotePlusAtJoin(q, pre, y, rest);
    QuotePlusParts([], q, pre, y);
    QuotePlusSkipMatch(rest, |q| + |pre| + 1);
  }

  /** The parts of one quote-plus, regrouped. */
  lemma QuotePlusParts(x: string, q: string, pre: string, y: string)
    ensures x + q + pre + ['+'] + y == x + (q + (pre + (['+'] + y)))
    ensures (q + (pre + (['+'] + y)))[|q| + |pre| + 1..] == y
  {
  }

  /**
   * A single `' +` join between two pieces of text without '+' is deleted together with
   * the quote and white space in front of the '+': `x + y` is what is left.
   */
  lemma OneQuotePlusRemoved(x: string, q: string, pre: string, y: string)
    requires '+' !in x && '+' !in y && (x == [] || (!IsSpace(x[|x| - 1]) && x[|x| - 1] != '\''))
    requires AllSpace(pre) && (q == [] || q == ['\''])
    ensures RemoveQuotePlus(x + q + pre + ['+'] + y) == x + y
  {
    var rest := q + (pre + (['+'] + y));
    QuotePlusParts(x, q, pre, y);
    QuotePlusKeepsPrefix(x, rest);
    LeadingQuotePlusDeleted(q, pre, y, rest);
    var whole := x + q + pre + ['+'] + y;
    assert whole == x + rest;
    assert RemoveQuotePlus(rest) == y;
    assert RemoveQuotePlus(whole) == x + y;
  }

  /** `a' +b` becomes `ab`. */
  lemma QuotePlusExample()
    ensures RemoveQuotePlus("a' +b") == "ab"
  {
    var x := "a";
    var y := "b";
    OneQuotePlusRemoved(x, "'", " ", y);
    assert x + "'" + " " + ['+'] + y == "a' +b";
    assert x + y == "ab";
  }

  /** The replacement of line 31 is a no-op on whatever line 30 produced. */
  lemma SecondPlusStepIsNoop(t: string)
    ensures RemoveQuotePlus(RemovePlusJoins(t)) == RemovePlusJoins(t)
  {
  }

  /** The formatted reply never contains a '+'. */
  lemma FormatHasNoPlus(reply: Option<string>)
    ensures '+' !in FormatLLMMarkdown(reply)
  {
    if !(reply.None? || reply.value == "") {
      var t := Trim(reply.value);
      var fenced := StripTrailingFence(StripLeadingFence(t, MarkdownFence));
      var unfenced := StripTrailingFence(StripLeadingFence(fenced, Fence));
      var newlines := ReplacePair(unfenced, '\\', 'n', '\n');
      var quotes := ReplacePair(newlines, '\\', '\'', '\'');
      var joined := RemovePlusJoins(quotes);
      var dquotes := ReplacePair(joined, '\\', '"', '"');
      ReplacePairKeepsNoPlus(joined, '\\', '"', '"');
      ReplacePairKeepsNoPlus(dquotes, '\\', '\\', '\\');
    }
  }

  /** No step lengthens the text, so the result is at most as long as the trimmed input. */
  lemma FormatNotLonger(reply: Option<string>)
    requires reply.Some?
    ensures |FormatLLMMarkdown(reply)| <= |Trim(reply.value)|
  {
  }

  /**
   * A reply whose trimmed text has no backslash, '+' or backtick passes through every
   * step unchanged: the result is exactly the trimmed reply.
   */
  lemma FormatPlainIsTrim(reply: string)
    requires reply != ""
    requires '\\' !in Trim(reply) && '+' !in Trim(reply) && '`' !in Trim(reply)
    ensures FormatLLMMarkdown(Some(reply)) == Trim(reply)
  {
  }

  /** The escaping that `ReplacePair` undoes: every `c` written as the two characters `a b`. */
  function Escape(t: string, a: char, b: char, c: char): (r: string)
    ensures |r| >= |t|
    decreases |t|
  {
    if t == [] then [] else (if t[0] == c then [a, b] else [t[0]]) + Escape(t[1..], a, b, c)
  }

  /**
   * On text without the escape character, replacing the digraph undoes the escaping: for
   * example `\n` written as backslash-n comes back as a line break.
   */
  lemma {:induction false} ReplacePairUnescapes(t: string, a: char, b: char, c: char)
    requires a !in t
    ensures ReplacePair(Escape(t, a, b, c), a, b, c) == t
    decreases |t|
  {
    if t != [] {
      var rest := Escape(t[1..], a, b, c);
      var e := Escape(t, a, b, c);
      NotInTail(t, a);
      ReplacePairUnescapes(t[1..], a, b, c);
      assert ReplacePair(rest, a, b, c) == t[1..];
      if t[0] == c {
        assert e == [a, b] + rest;
        assert e[0] == a && e[1] == b && e[2..] == rest;
        assert ReplacePair(e, a, b, c) == [c] + ReplacePair(rest, a, b, c);
      } else {
        assert e == [t[0]] + rest;
        assert e[0] == t[0] != a && e[1..] == rest;
        assert ReplacePair(e, a, b, c) == [t[0]] + ReplacePair(rest, a, b, c);
      }
      assert t == [t[0]] + t[1..];
    }
  }

  /** Escaping adds only the characters `a` and `b`. */
  lemma {:induction false} EscapeKeepsAbsent(t: string, a: char, b: char, c: char, x: char)
    requires x !in t && x != a && x != b
    ensures x !in Escape(t, a, b, c)
    decreases |t|
  {
    if t != [] {
      NotInTail(t, x);
      EscapeKeepsAbsent(t[1..], a, b, c, x);
    }
  }

  /** The ```markdown fence and the white space after it go, and nothing else. */
  lemma DropMarkdownFence(pre: string, a: string)
    requires AllSpace(pre) && a != [] && !IsSpace(a[0])
    ensures StripLeadingFence(MarkdownFence + (pre + a), MarkdownFence) == a
  {
    var f := MarkdownFence;
    var rest := pre + a;
    assert (f + rest)[|f|..] == rest;
    TrimStartSkips(pre, a);
  }

  /** The closing fence and the white space before it go, and nothing else. */
  lemma DropClosingFence(body: string, post: string)
    requires AllSpace(post) && body != [] && !IsSpace(body[|body| - 1])
    ensures StripTrailingFence(body + post + Fence) == body
  {
    var f := Fence;
    var a := body + post + f;
    assert a[|a| - 3..] == f && a[..|a| - 3] == body + post;
    TrimEndSkips(body, post);
  }

  /** A fenced reply with no white space around it is already trimmed and loses exactly its fences. */
  lemma UnwrapMarkdownFence(pre: string, body: string, post: string)
    requires AllSpace(pre) && AllSpace(post)
    requires body != [] && !IsSpace(body[0]) && !IsSpace(body[|body| - 1])
    ensures var reply := MarkdownFence + pre + body + post + Fence;
      Trim(reply) == reply && StripTrailingFence(StripLeadingFence(reply, MarkdownFence)) == body
  {
    var f := MarkdownFence;
    var a := body + post + Fence;
    var reply := f + pre + body + post + Fence;
    assert reply == f + (pre + a);
    assert reply[0] == f[0] && reply[|reply| - 1] == Fence[2];
    TrimNoSpaceEnds(reply);
    assert a[0] == body[0];
    DropMarkdownFence(pre, a);
    DropClosingFence(body, post);
  }

  /**
   * A reply wrapped in a ```markdown fence, with white space inside the fence and line
   * breaks written as backslash-n, comes back unwrapped with real line breaks, provided
   * the text has no backslash, '+' or backtick of its own.
   */
  lemma FencedEscapedReply(pre: string, t: string, post: string)
    requires AllSpace(pre) && AllSpace(post)
    requires '\\' !in t && '+' !in t && '`' !in t
    requires var body := Escape(t, '\\', 'n', '\n');
      body != [] && !IsSpace(body[0]) && !IsSpace(body[|body| - 1])
    ensures FormatLLMMarkdown(Some(MarkdownFence + pre + Escape(t, '\\', 'n', '\n') + post + Fence)) == t
  {
    var body := Escape(t, '\\', 'n', '\n');
    UnwrapMarkdownFence(pre, body, post);
    EscapeKeepsAbsent(t, '\\', 'n', '\n', '`');
    ReplacePairUnescapes(t, '\\', 'n', '\n');
  }
}

=== FILE: options.dfy ===
/** The conventional optional value, used for JavaScript's `null`/`undefined`. */
module Options {

  datatype Option<+T> = None | Some(value: T)
}

=== FILE: session.dfy ===
/**
 * The transcription session controller of public/electron.js: the process-wide
 * `ttsState` record and API key, the IPC handlers `tts-start-audio`, `tts-stop-audio`,
 * `tts-start-transcription`, `tts-stop-transcription` and `store-tts-config`, the
 * callbacks of the streaming transcriber and of the audio source, and
 * `attemptReconnection`.
 *
 * Every handler runs as one atomic step of `Step`. What the capture libraries, the
 * speech service and the timers do is carried by the events: whether a backend starts,
 * whether a connection is made, which transcriber fires which callback.
 */
module SessionModel {
  import opened Options
  import opened JsText
  import AudioDevices

  /** `ttsState.maxReconnectAttempts`. */
  const MaxReconnectAttempts: nat := 5

  const MsgKeyMissing: string := "tts API key missing"
  const MsgAudioNotStarted: string := "Audio capture not started"
  const MsgTranscriptionFailed: string := "Failed to start transcription"
  const MsgCaptureFailed: string := "Failed to start audio capture"
  const MsgCaptureLoadFailed: string := "Failed to load audio capture: "
  const MsgSendFailed: string := "Streaming connection not open; transcription stopped."
  const MsgReconnectFailed: string := "Reconnection failed: "

  /** Which code created a transcriber, and so which callbacks it carries. */
  datatype Origin = StartedByUser | StartedByReconnect

  /** A streaming transcriber: its creation index and origin. */
  datatype Transcriber = Transcriber(id: nat, origin: Origin)

  /** The object held in `ttsState.audioSource`. */
  datatype AudioSource =
    | AudioTeeTap                     // macOS AudioTee whose start() returned
    | UnstartedAudioTee               // macOS AudioTee stored before its start() threw
    | FfmpegPipe                      // macOS fallback: ffmpeg writing PCM to a pipe
    | PortAudioInput(deviceId: int)   // elsewhere: naudiodon input on the chosen device

  /** A source that can deliver `data` events. */
  predicate Delivers(a: AudioSource) {
    !a.UnstartedAudioTee?
  }

  /**
   * The state of the main process. `apiKey` is never `Some("")`: only `store-tts-config`
   * sets it, and only to a non-empty key (`SessionProps.Inv`), so the guards test
   * `apiKey.None?` where the code tests `!tts_API_KEY`.
   */
  datatype State = State(
    apiKey: Option<string>,       // tts_API_KEY
    audio: Option<AudioSource>,   // ttsState.audioSource
    hasClient: bool,              // ttsState.client !== null
    ws: Option<Transcriber>,      // ttsState.ws
    isStreaming: bool,
    isReady: bool,
    audioHandlerSet: bool,
    dataHandlers: nat,            // 'data' listeners installed on the current source object
    reconnectAttempts: nat,
    heldTimer: bool,              // ttsState.reconnectTimer refers to a pending timer
    orphanTimers: nat,            // pending timers whose handle was overwritten
    transcribers: seq<Origin>)    // every transcriber created so far, by id

  /** Messages sent to the renderer window. */
  datatype Message = TtsError(text: string) | TtsTranscript(text: string) | TtsStatus(running: bool)

  /** What a step does outside the process state. */
  datatype Effect =
    | Notify(msg: Message)               // mainWindow.webContents.send(...)
    | SendAudio(to: Transcriber)         // transcriber.sendAudio(chunk)
    | CloseConnection(conn: Transcriber) // transcriber.close()

  /** How far the macOS AudioTee attempt got. */
  datatype TeeOutcome = TeeUnavailable | TeeStartFails | TeeStarts

  datatype Event =
    | StartAudioMac(tee: TeeOutcome, ffmpegSpawns: bool, teeError: string)
    | StartAudioOther(devices: seq<AudioDevices.Device>, portAudioStarts: bool)
    | StopAudio
    | StartTranscription(clientLoads: bool, connects: bool)
    | StopTranscription
    | StoreConfig(apiKey: Option<string>)
    | Opened(t: Transcriber)
    | TurnReceived(t: Transcriber, transcript: Option<string>)
    | Errored(t: Transcriber, message: string)
    | Closed(t: Transcriber)
    | AudioChunk(sendThrows: bool)
    | CaptureFailed(message: string)
    | TimerFired(held: bool, clientLoads: bool, connects: bool, failure: string)

  datatype Transition = Transition(next: State, effects: seq<Effect>)

  /** The state at process start. */
  function Init(): (r: State)
    ensures r.apiKey.None? && r.audio.None? && !r.hasClient && r.ws.None?
    ensures !r.isStreaming && !r.isReady && !r.audioHandlerSet && r.dataHandlers == 0
    ensures r.reconnectAttempts == 0 && !r.heldTimer && r.orphanTimers == 0 && r.transcribers == []
  {
    State(None, None, false, None, false, false, false, 0, 0, false, 0, [])
  }

  /** `t` was created by this process and has its callbacks installed. */
  predicate Known(s: State, t: Transcriber) {
    t.id < |s.transcribers| && s.transcribers[t.id] == t.origin
  }

  function NoEffect(s: State): (r: Transition) {
    Transition(s, [])
  }

  function Say(s: State, m: Message): (r: Transition) {
    Transition(s, [Notify(m)])
  }

  /** `await ttsState.ws.close()` if there is a connection, as a list of effects. */
  function CloseCurrent(s: State): (r: seq<Effect>) {
    if s.ws.Some? then [CloseConnection(s.ws.value)] else []
  }

  // ---------------------------------------------------------------------------
  // IPC handlers

  /** `tts-start-audio` on macOS: AudioTee first, ffmpeg as the fallback. */
  function OnStartAudioMac(s: State, tee: TeeOutcome, ffmpegSpawns: bool, teeError: string): (r: Transition)
    ensures s.audio.Some? ==> r == NoEffect(s)
    ensures s.audio.None? && tee.TeeStarts? ==> r.next.audio == Some(AudioTeeTap) && r.effects == []
    ensures s.audio.None? && !tee.TeeStarts? && ffmpegSpawns ==>
      r.next.audio == Some(FfmpegPipe) && r.effects == []
    ensures s.audio.None? && !tee.TeeStarts? && !ffmpegSpawns ==>
      r.effects == [Notify(TtsError(MsgCaptureLoadFailed + teeError))]
    ensures s.audio.None? && tee.TeeUnavailable? && !ffmpegSpawns ==> r.next.audio.None?
    ensures s.audio.None? && tee.TeeStartFails? && !ffmpegSpawns ==> r.next.audio == Some(UnstartedAudioTee)
    ensures r.next == s.(audio := r.next.audio, dataHandlers := r.next.dataHandlers)
  {
    if s.audio.Some? then NoEffect(s)
    else if tee.TeeStarts? then NoEffect(s.(audio := Some(AudioTeeTap), dataHandlers := 0))
    else if ffmpegSpawns then NoEffect(s.(audio := Some(FfmpegPipe), dataHandlers := 0))
    else
      // the AudioTee object, if it was constructed, is already stored and stays there
      var left := if tee.TeeStartFails? then Some(UnstartedAudioTee) else None;
      Say(s.(audio := left, dataHandlers := 0), TtsError(MsgCaptureLoadFailed + teeError))
  }

  /** `tts-start-audio` elsewhere: naudiodon input on a loopback-like device. */
  function OnStartAudioOther(s: State, devices: seq<AudioDevices.Device>, starts: bool): (r: Transition)
    ensures s.audio.Some? ==> r == NoEffect(s)
    ensures s.audio.None? && !starts ==> r == Say(s, TtsError(MsgCaptureFailed))
    ensures s.audio.None? && starts ==>
      r.next.audio == Some(PortAudioInput(AudioDevices.SelectDeviceId(devices))) && r.effects == []
    ensures r.next == s.(audio := r.next.audio, dataHandlers := r.next.dataHandlers)
  {
    if s.audio.Some? then NoEffect(s)
    else if !starts then Say(s, TtsError(MsgCaptureFailed))
    else NoEffect(s.(audio := Some(PortAudioInput(AudioDevices.SelectDeviceId(devices))), dataHandlers := 0))
  }

  /** `tts-stop-audio`: ends the session and releases the source and the client. */
  function OnStopAudio(s: State): (r: Transition)
    ensures !r.next.isStreaming && !r.next.isReady && r.next.reconnectAttempts == 0 && !r.next.heldTimer
    ensures r.next.ws.None? && r.next.audio.None? && !r.next.hasClient
    ensures r.next.apiKey == s.apiKey && r.next.transcribers == s.transcribers
    ensures r.next.orphanTimers == s.orphanTimers
    ensures |r.effects| >= 1 && r.effects[|r.effects| - 1] == Notify(TtsStatus(false))
  {
    var dropSource := s.audio.Some?;
    var next := s.(
      isStreaming := false, isReady := false, reconnectAttempts := 0, heldTimer := false,
      ws := None, audio := None,
      audioHandlerSet := if dropSource then false else s.audioHandlerSet,
      dataHandlers := if dropSource then 0 else s.dataHandlers,
      hasClient := false);
    Transition(next, CloseCurrent(s) + [Notify(TtsStatus(false))])
  }

  /**
   * `tts-start-transcription`. Guards in source order: API key, already streaming,
   * audio source. Then the client is created if needed, a transcriber is created and
   * connected, and the audio `data` handler is installed unless one already is.
   */
  function OnStartTranscription(s: State, clientLoads: bool, connects: bool): (r: Transition)
    ensures r.next.apiKey == s.apiKey && r.next.audio == s.audio && r.next.isStreaming == s.isStreaming
    ensures r.next.reconnectAttempts == s.reconnectAttempts && r.next.heldTimer == s.heldTimer
    ensures r.next.orphanTimers == s.orphanTimers
    ensures r.next.transcribers == s.transcribers || r.next.transcribers == s.transcribers + [StartedByUser]
    ensures r.effects == [] || (|r.effects| == 1 && r.effects[0].Notify? && r.effects[0].msg.TtsError?)
    ensures r.effects == [] <==> s.apiKey.Some? && (s.isStreaming || (s.audio.Some? && (s.hasClient || clientLoads) && connects))
  {
    if s.apiKey.None? then Say(s, TtsError(MsgKeyMissing))
    else if s.isStreaming then NoEffect(s)
    else if s.audio.None? then Say(s, TtsError(MsgAudioNotStarted))
    else if !s.hasClient && !clientLoads then Say(s, TtsError(MsgTranscriptionFailed))
    else
      var created := s.(hasClient := true, isReady := false, ws := None,
                        transcribers := s.transcribers + [StartedByUser]);
      if !connects then Say(created, TtsError(MsgTranscriptionFailed))
      else if created.audioHandlerSet then NoEffect(created)
      else NoEffect(created.(audioHandlerSet := true, dataHandlers := created.dataHandlers + 1))
  }

  /** `tts-stop-transcription`: ends the session but keeps the source and the client. */
  function OnStopTranscription(s: State): (r: Transition)
    ensures !r.next.isStreaming && !r.next.isReady && r.next.reconnectAttempts == 0 && !r.next.heldTimer
    ensures r.next.ws.None?
    ensures r.next.audio == s.audio && r.next.audioHandlerSet == s.audioHandlerSet
    ensures r.next.dataHandlers == s.dataHandlers && r.next.hasClient == s.hasClient
    ensures r.next.apiKey == s.apiKey && r.next.transcribers == s.transcribers
    ensures r.next.orphanTimers == s.orphanTimers
    ensures |r.effects| >= 1 && r.effects[|r.effects| - 1] == Notify(TtsStatus(false))
  {
    var next := s.(isStreaming := false, isReady := false, reconnectAttempts := 0,
                   heldTimer := false, ws := None);
    Transition(next, CloseCurrent(s) + [Notify(TtsStatus(false))])
  }

  /** `store-tts-config`: only a truthy `ttsEngine.apiKey` replaces the key. */
  function OnStoreConfig(s: State, key: Option<string>): (r: Transition)
    ensures r.effects == []
    ensures key.Some? && key.value != "" ==> r.next == s.(apiKey := key)
    ensures key.None? || key.value == "" ==> r.next == s
  {
    if key.Some? && key.value != "" then NoEffect(s.(apiKey := key)) else NoEffect(s)
  }

  // ---------------------------------------------------------------------------
  // Transcriber callbacks (the same `open` code for both origins)

  function OnOpen(s: State, t: Transcriber): (r: Transition)
    ensures r.next.isStreaming && r.next.isReady && r.next.ws == Some(t)
    ensures r.next.reconnectAttempts == 0 && !r.next.heldTimer
    ensures r.next.audio == s.audio && r.next.apiKey == s.apiKey && r.next.hasClient == s.hasClient
    ensures r.next.transcribers == s.transcribers && r.next.orphanTimers == s.orphanTimers
    ensures r.next.audioHandlerSet == s.audioHandlerSet && r.next.dataHandlers == s.dataHandlers
    ensures r.effects == [Notify(TtsStatus(true))]
  {
    Say(s.(isStreaming := true, isReady := true, ws := Some(t), reconnectAttempts := 0, heldTimer := false),
        TtsStatus(true))
  }

  /** `turn`: only the transcriber made by start-transcription has this callback. */
  function OnTurn(s: State, t: Transcriber, transcript: Option<string>): (r: Transition)
    ensures r.next == s
    ensures r.effects == [] || (t.origin.StartedByUser? && transcript.Some? && r.effects == [Notify(TtsTranscript(transcript.value))])
  {
    if t.origin.StartedByReconnect? then NoEffect(s)
    else if transcript.None? || transcript.value == "" || Trim(transcript.value) == "" then NoEffect(s)
    else Say(s, TtsTranscript(transcript.value))
  }

  function OnError(s: State, t: Transcriber, message: string): (r: Transition)
    ensures !r.next.isStreaming && !r.next.isReady
    ensures r.next.(isStreaming := s.isStreaming, isReady := s.isReady) == s
    ensures t.origin.StartedByUser? ==> r.effects == [Notify(TtsError(message))]
    ensures t.origin.StartedByReconnect? ==> r.effects == [Notify(TtsError(MsgReconnectFailed + message))]
  {
    var text := if t.origin.StartedByUser? then message else MsgReconnectFailed + message;
    Say(s.(isReady := false, isStreaming := false), TtsError(text))
  }

  /** `setTimeout(attemptReconnection, delay)` stored in `ttsState.reconnectTimer`. */
  function ScheduleReconnect(s: State): (r: State) {
    s.(orphanTimers := s.orphanTimers + (if s.heldTimer then 1 else 0), heldTimer := true)
  }

  /**
   * `close`. The first transcriber's callback clears `isStreaming` and then tests it,
   * exactly as written; the reconnection transcriber's callback tests only the count.
   */
  function OnClose(s: State, t: Transcriber): (r: Transition)
    ensures !r.next.isStreaming && !r.next.isReady && r.next.ws.None?
    ensures r.next.audio == s.audio && r.next.apiKey == s.apiKey && r.next.hasClient == s.hasClient
    ensures r.next.transcribers == s.transcribers
    ensures r.next.audioHandlerSet == s.audioHandlerSet && r.next.dataHandlers == s.dataHandlers
    ensures r.effects == [] ==>
      && t.origin.StartedByReconnect? && s.reconnectAttempts < MaxReconnectAttempts
      && r.next.reconnectAttempts == s.reconnectAttempts + 1 && r.next.heldTimer
      && r.next.orphanTimers == s.orphanTimers + (if s.heldTimer then 1 else 0)
    ensures r.effects != [] ==>
      && r.effects == [Notify(TtsStatus(false))]
      && r.next.reconnectAttempts == s.reconnectAttempts && r.next.heldTimer == s.heldTimer
      && r.next.orphanTimers == s.orphanTimers
  {
    var cleared := s.(isStreaming := false, isReady := false, ws := None);
    var retry := if t.origin.StartedByUser? then cleared.isStreaming && cleared.reconnectAttempts < MaxReconnectAttempts
                 else cleared.reconnectAttempts < MaxReconnectAttempts;
    if retry then NoEffect(ScheduleReconnect(cleared.(reconnectAttempts := cleared.reconnectAttempts + 1)))
    else Say(cleared, TtsStatus(false))
  }

  // ---------------------------------------------------------------------------
  // Audio data callback

  /** One run of the `data` listener installed by start-transcription. */
  function DataHandler(s: State, sendThrows: bool): (r: Transition)
    ensures r.next == s || r.next == s.(isReady := false, isStreaming := false)
    ensures r.effects != [] ==> s.ws.Some? && s.isStreaming && s.isReady && 0 < |r.effects| <= 2
    ensures r.effects == [] ==> r.next == s
  {
    if s.ws.None? then NoEffect(s)
    else if !s.isStreaming || !s.isReady then NoEffect(s)
    else if !sendThrows then Transition(s, [SendAudio(s.ws.value)])
    else Transition(s.(isReady := false, isStreaming := false),
                    [CloseConnection(s.ws.value), Notify(TtsError(MsgSendFailed))])
  }

  /** Every installed listener runs, in order, on the same chunk. */
  function RunDataHandlers(s: State, n: nat, sendThrows: bool): (r: Transition)
    ensures r.next.audio == s.audio && r.next.apiKey == s.apiKey && r.next.transcribers == s.transcribers
    ensures r.next.reconnectAttempts == s.reconnectAttempts && r.next.heldTimer == s.heldTimer
    ensures r.next.orphanTimers == s.orphanTimers
    ensures (r.next.isReady == s.isReady && r.next.isStreaming == s.isStreaming)
      || (!r.next.isReady && !r.next.isStreaming)
    ensures r.next.ws == s.ws
    decreases n
  {
    if n == 0 then NoEffect(s)
    else
      var first := DataHandler(s, sendThrows);
      var rest := RunDataHandlers(first.next, n - 1, sendThrows);
      Transition(rest.next, first.effects + rest.effects)
  }

  function OnAudioChunk(s: State, sendThrows: bool): (r: Transition)
    ensures s.audio.None? || !Delivers(s.audio.value) ==> r == Transition(s, [])
    ensures r.next.audio == s.audio && r.next.apiKey == s.apiKey && r.next.transcribers == s.transcribers
    ensures r.next.reconnectAttempts == s.reconnectAttempts
  {
    if s.audio.None? || !Delivers(s.audio.value) then NoEffect(s)
    else RunDataHandlers(s, s.dataHandlers, sendThrows)
  }

  /**
   * The `error` listener of the capture backend. Only the macOS sources have one (the
   * AudioTee listener and ffmpeg's); the naudiodon wrapper forwards no errors.
   */
  function OnCaptureError(s: State, message: string): (r: Transition)
    ensures r.next == s
    ensures s.audio.Some? && !s.audio.value.PortAudioInput? ==> r.effects == [Notify(TtsError(message))]
    ensures s.audio.None? || s.audio.value.PortAudioInput? ==> r.effects == []
  {
    if s.audio.Some? && !s.audio.value.PortAudioInput? then Say(s, TtsError(message)) else NoEffect(s)
  }

  // ---------------------------------------------------------------------------
  // Reconnection

  /** `attemptReconnection()`. */
  function AttemptReconnection(s: State, clientLoads: bool, connects: bool, failure: string): (r: Transition)
    ensures r.next.apiKey == s.apiKey && r.next.audio == s.audio && r.next.ws == s.ws
    ensures r.next.reconnectAttempts == s.reconnectAttempts && r.next.heldTimer == s.heldTimer
    ensures r.next.orphanTimers == s.orphanTimers
    ensures r.next.transcribers == s.transcribers || r.next.transcribers == s.transcribers + [StartedByReconnect]
    ensures r.next.transcribers != s.transcribers ==> s.apiKey.Some? && s.audio.Some? && r.next.hasClient
    ensures |r.effects| <= 1
    ensures r.effects == [] <==> s.apiKey.Some? && s.audio.Some? && (s.hasClient || clientLoads) && connects
    ensures s.apiKey.None? || s.audio.None? ==> r.next == s && r.effects == [Notify(TtsStatus(false))]
    ensures r.effects != [] && s.apiKey.Some? && s.audio.Some? ==>
      !r.next.isStreaming && !r.next.isReady && r.effects == [Notify(TtsError(MsgReconnectFailed + failure))]
    ensures r.effects == [] ==> r.next.isStreaming == s.isStreaming && r.next.isReady == s.isReady
  {
    if s.apiKey.None? || s.audio.None? then Say(s, TtsStatus(false))
    else if !s.hasClient && !clientLoads then
      Say(s.(isStreaming := false, isReady := false), TtsError(MsgReconnectFailed + failure))
    else
      var created := s.(hasClient := true, transcribers := s.transcribers + [StartedByReconnect]);
      if connects then NoEffect(created)
      else Say(created.(isStreaming := false, isReady := false), TtsError(MsgReconnectFailed + failure))
  }

  /** A pending reconnect timer fires: the held one, or one whose handle was lost. */
  function OnTimerFired(s: State, held: bool, clientLoads: bool, connects: bool, failure: string): (r: Transition)
    ensures !s.heldTimer && s.orphanTimers == 0 ==> r == Transition(s, [])
    ensures r.next.reconnectAttempts == s.reconnectAttempts && r.next.orphanTimers <= s.orphanTimers
    ensures r.next.transcribers == s.transcribers || r.next.transcribers == s.transcribers + [StartedByReconnect]
    ensures held && s.heldTimer ==> !r.next.heldTimer && r.next.orphanTimers == s.orphanTimers
    ensures !held && s.orphanTimers > 0 ==>
      r.next.orphanTimers == s.orphanTimers - 1 && r.next.heldTimer == s.heldTimer
    ensures (held && s.heldTimer) || (!held && s.orphanTimers > 0) ==>
      (r.effects == [] <==> s.apiKey.Some? && s.audio.Some? && (s.hasClient || clientLoads) && connects)
    ensures !(held && s.heldTimer) && !(!held && s.orphanTimers > 0) ==> r == Transition(s, [])
  {
    if held && s.heldTimer then AttemptReconnection(s.(heldTimer := false), clientLoads, connects, failure)
    else if !held && s.orphanTimers > 0 then
      AttemptReconnection(s.(orphanTimers := s.orphanTimers - 1), clientLoads, connects, failure)
    else NoEffect(s)
  }

  // ---------------------------------------------------------------------------
  // The state machine

  /** One event, handled atomically. Callbacks of transcribers that do not exist never run. */
  function Step(s: State, e: Event): (r: Transition)
    ensures r.next.apiKey == s.apiKey || (e.StoreConfig? && r.next.apiKey == e.apiKey)
    ensures |s.transcribers| <= |r.next.transcribers| <= |s.transcribers| + 1
    ensures r.next.transcribers[..|s.transcribers|] == s.transcribers
  {
    match e
    case StartAudioMac(tee, ffmpegSpawns, teeError) => OnStartAudioMac(s, tee, ffmpegSpawns, teeError)
    case StartAudioOther(devices, starts) => OnStartAudioOther(s, devices, starts)
    case StopAudio => OnStopAudio(s)
    case StartTranscription(clientLoads, connects) => OnStartTranscription(s, clientLoads, connects)
    case StopTranscription => OnStopTranscription(s)
    case StoreConfig(key) => OnStoreConfig(s, key)
    case Opened(t) => if Known(s, t) then OnOpen(s, t) else NoEffect(s)
    case TurnReceived(t, transcript) => if Known(s, t) then OnTurn(s, t, transcript) else NoEffect(s)
    case Errored(t, message) => if Known(s, t) then OnError(s, t, message) else NoEffect(s)
    case Closed(t) => if Known(s, t) then OnClose(s, t) else NoEffect(s)
    case AudioChunk(sendThrows) => OnAudioChunk(s, sendThrows)
    case CaptureFailed(message) => OnCaptureError(s, message)
    case TimerFired(held, clientLoads, connects, failure) => OnTimerFired(s, held, clientLoads, connects, failure)
  }

  /** A sequence of events from `s`, with all effects in order. */
  function Run(s: State, events: seq<Event>): (r: Transition)
    ensures |s.transcribers| <= |r.next.transcribers| <= |s.transcribers| + |events|
    ensures r.next.transcribers[..|s.transcribers|] == s.transcribers
    decreases |events|
  {
    if events == [] then NoEffect(s)
    else
      var first := Step(s, events[0]);
      var rest := Run(first.next, events[1..]);
      Transition(rest.next, first.effects + rest.effects)
  }
}

=== FILE: session_props.dfy ===
/**
 * Properties of the transcription session controller: the invariants every handler
 * keeps, the guards and frames of each handler, and the fact that, as written, the
 * reconnection machinery can never be reached from process start.
 */
module SessionProps {
  import opened Options
  import opened JsText
  import opened SessionModel

  /** Relations between the `ttsState` fields that every handler maintains. */
  ghost predicate Inv(s: State) {
    && s.isReady == s.isStreaming
    && (s.isStreaming ==> s.ws.Some?)
    && (s.ws.Some? ==> Known(s, s.ws.value))
    && (s.audioHandlerSet ==> s.audio.Some?)
    && s.dataHandlers == (if s.audioHandlerSet then 1 else 0)
    && s.reconnectAttempts <= MaxReconnectAttempts
    && (s.apiKey.Some? ==> s.apiKey.value != "")
  }

  /** No reconnection has ever been scheduled or made. */
  ghost predicate NoReconnection(s: State) {
    && s.reconnectAttempts == 0
    && !s.heldTimer
    && s.orphanTimers == 0
    && forall i :: 0 <= i < |s.transcribers| ==> s.transcribers[i] == StartedByUser
  }

  /** States reachable from process start by some sequence of events. */
  ghost predicate Reachable(s: State) {
    exists events :: Run(Init(), events).next == s
  }

  // ---------------------------------------------------------------------------
  // Audio data handler

  /**
   * With at most one listener installed, a chunk sends iff the source delivers, a
   * listener is installed, and `ws`, `isStreaming` and `isReady` are all set; a send
   * that throws clears both flags and reports exactly one error.
   */
  lemma ChunkSendsIff(s: State, sendThrows: bool)
    requires Inv(s)
    ensures var r := Step(s, AudioChunk(sendThrows));
      var live := s.audio.Some? && Delivers(s.audio.value) && s.audioHandlerSet
                  && s.ws.Some? && s.isStreaming && s.isReady;
      && (live && !sendThrows ==> r == Transition(s, [SendAudio(s.ws.value)]))
      && (live && sendThrows ==>
            && r.next == s.(isStreaming := false, isReady := false)
            && r.effects == [CloseConnection(s.ws.value), Notify(TtsError(MsgSendFailed))])
      && (!live ==> r == Transition(s, []))
  {
    if s.audio.Some? && Delivers(s.audio.value) && s.audioHandlerSet {
      var first := DataHandler(s, sendThrows);
      assert RunDataHandlers(first.next, 0, sendThrows) == NoEffect(first.next);
      assert first.effects + [] == first.effects;
    }
  }

  // ---------------------------------------------------------------------------
  // Invariant preservation

  lemma StepPreservesInv(s: State, e: Event)
    requires Inv(s)
    ensures Inv(Step(s, e).next)
  {
    match e
    case AudioChunk(sendThrows) => ChunkSendsIff(s, sendThrows);
    case StartTranscription(clientLoads, connects) => StartTranscriptionPreservesInv(s, clientLoads, connects);
    case TimerFired(held, clientLoads, connects, failure) => TimerPreservesInv(s, held, clientLoads, connects, failure);
    case Opened(t) => CallbacksPreserveInv(s, e);
    case Closed(t) => CallbacksPreserveInv(s, e);
    case Errored(t, m) => CallbacksPreserveInv(s, e);
    case TurnReceived(t, tr) => CallbacksPreserveInv(s, e);
    case StartAudioMac(tee, ff, err) => CommandsPreserveInv(s, e);
    case StartAudioOther(devices, starts) => CommandsPreserveInv(s, e);
    case StopAudio => CommandsPreserveInv(s, e);
    case StopTranscription => CommandsPreserveInv(s, e);
    case StoreConfig(key) => CommandsPreserveInv(s, e);
    case CaptureFailed(message) => CommandsPreserveInv(s, e);
  }

  lemma CallbacksPreserveInv(s: State, e: Event)
    requires Inv(s)
    requires e.Opened? || e.Closed? || e.Errored? || e.TurnReceived?
    ensures Inv(Step(s, e).next)
  {
  }

  lemma CommandsPreserveInv(s: State, e: Event)
    requires Inv(s)
    requires e.StartAudioMac? || e.StartAudioOther? || e.StopAudio? || e.StopTranscription?
          || e.StoreConfig? || e.CaptureFailed?
    ensures Inv(Step(s, e).next)
  {
  }

  lemma StartTranscriptionPreservesInv(s: State, clientLoads: bool, connects: bool)
    requires Inv(s)
    ensures Inv(Step(s, StartTranscription(clientLoads, connects)).next)
  {
  }

  lemma TimerPreservesInv(s: State, held: bool, clientLoads: bool, connects: bool, failure: string)
    requires Inv(s)
    ensures Inv(Step(s, TimerFired(held, clientLoads, connects, failure)).next)
  {
    var n := Step(s, TimerFired(held, clientLoads, connects, failure)).next;
    if n.ws.Some? {
      assert s.ws == n.ws;
      assert n.transcribers == s.transcribers || n.transcribers == s.transcribers + [StartedByReconnect];
    }
  }

  lemma {:induction false} RunPreservesInv(s: State, events: seq<Event>)
    requires Inv(s)
    ensures Inv(Run(s, events).next)
    decreases |events|
  {
    if events != [] {
      StepPreservesInv(s, events[0]);
      RunPreservesInv(Step(s, events[0]).next, events[1..]);
    }
  }

  /** No step starts a reconnection from a state where none was ever scheduled. */
  lemma StepKeepsNoReconnection(s: State, e: Event)
    requires Inv(s) && NoReconnection(s)
    ensures NoReconnection(Step(s, e).next)
  {
    match e
    case AudioChunk(sendThrows) => ChunkSendsIff(s, sendThrows);
    case Closed(t) =>
      if Known(s, t) {
        assert t.origin == StartedByUser;
      }
    case StartTranscription(clientLoads, connects) =>
      var n := Step(s, e).next;
      assert forall i :: 0 <= i < |n.transcribers| ==> n.transcribers[i] == StartedByUser by {
        forall i | 0 <= i < |n.transcribers| ensures n.transcribers[i] == StartedByUser {
          if i < |s.transcribers| {
            assert n.transcribers[i] == s.transcribers[i] || n.transcribers == s.transcribers;
          }
        }
      }
    case _ =>
  }

  lemma {:induction false} RunKeepsNoReconnection(s: State, events: seq<Event>)
    requires Inv(s) && NoReconnection(s)
    ensures Inv(Run(s, events).next) && NoReconnection(Run(s, events).next)
    decreases |events|
  {
    if events != [] {
      StepPreservesInv(s, events[0]);
      StepKeepsNoReconnection(s, events[0]);
      RunKeepsNoReconnection(Step(s, events[0]).next, events[1..]);
    }
  }

  /**
   * Every reachable state satisfies the invariants, has `reconnectAttempts == 0`, no
   * pending reconnect timer, and no transcriber created by reconnection.
   */
  lemma ReachableStatesNeverReconnect(s: State)
    requires Reachable(s)
    ensures Inv(s) && NoReconnection(s)
  {
    var events :| Run(Init(), events).next == s;
    RunKeepsNoReconnection(Init(), events);
  }

  /** Hence no timer ever fires in a reachable state: `attemptReconnection` is never entered. */
  lemma AttemptReconnectionUnreachable(s: State, held: bool, clientLoads: bool, connects: bool, failure: string)
    requires Reachable(s)
    ensures Step(s, TimerFired(held, clientLoads, connects, failure)) == Transition(s, [])
  {
    ReachableStatesNeverReconnect(s);
  }

  // ---------------------------------------------------------------------------
  // Callbacks of the first transcriber

  /**
   * Whatever the state, the close callback of a transcriber made by start-transcription
   * reports `{running: false}` and never schedules a reconnection, because it clears
   * `isStreaming` before testing it.
   */
  lemma FirstCloseNeverReconnects(s: State, t: Transcriber)
    requires Known(s, t) && t.origin == StartedByUser
    ensures Step(s, Closed(t))
      == Transition(s.(isStreaming := false, isReady := false, ws := None), [Notify(TtsStatus(false))])
  {
  }

  /**
   * A turn of the first transcriber with a missing or all-white-space transcript
   * produces nothing; any other transcript is forwarded verbatim, once.
   */
  lemma TurnForwardsNonBlank(s: State, t: Transcriber, transcript: Option<string>)
    requires Known(s, t) && t.origin == StartedByUser
    ensures var r := Step(s, TurnReceived(t, transcript));
      && r.next == s
      && (transcript.None? || AllSpace(transcript.value) ==> r.effects == [])
      && (transcript.Some? && !AllSpace(transcript.value) ==>
            r.effects == [Notify(TtsTranscript(transcript.value))])
  {
    if transcript.Some? {
      TrimEmptyIffAllSpace(transcript.value);
    }
  }

  /** The reconnection transcriber has no `turn` callback, so its transcripts are dropped. */
  lemma ReconnectedTurnsDropped(s: State, t: Transcriber, transcript: Option<string>)
    requires Known(s, t) && t.origin == StartedByReconnect
    ensures Step(s, TurnReceived(t, transcript)) == Transition(s, [])
  {
  }

  /**
   * `open` runs even for a transcriber that is no longer (or never was) `ws`: after
   * stop-transcription, any earlier transcriber opening turns streaming back on.
   */
  lemma StaleOpenRestartsStreaming(s: State, t: Transcriber)
    requires Known(s, t)
    ensures var stopped := Step(s, StopTranscription).next;
      var r := Step(stopped, Opened(t));
      && !stopped.isStreaming
      && r.next.isStreaming && r.next.isReady && r.next.ws == Some(t)
      && r.effects == [Notify(TtsStatus(true))]
  {
  }

  // ---------------------------------------------------------------------------
  // IPC handlers

  /** `tts-start-audio` does nothing while a source is held, on either platform. */
  lemma StartAudioWhileHeldIsNoop(s: State, e: Event)
    requires e.StartAudioMac? || e.StartAudioOther?
    requires s.audio.Some?
    ensures Step(s, e) == Transition(s, [])
  {
  }

  /**
   * On macOS an AudioTee whose `start()` throws, followed by a failed ffmpeg fallback,
   * stays stored: later start-audio calls do nothing, the source never delivers a chunk,
   * and start-transcription gets past its audio-source check.
   */
  lemma UnstartedAudioTeeStaysStored(s: State, teeError: string, again: Event, sendThrows: bool)
    requires Inv(s) && s.audio.None?
    requires again.StartAudioMac? || again.StartAudioOther?
    ensures var r := Step(s, StartAudioMac(TeeStartFails, false, teeError));
      && r.next.audio == Some(UnstartedAudioTee)
      && r.effects == [Notify(TtsError(MsgCaptureLoadFailed + teeError))]
      && Step(r.next, again) == Transition(r.next, [])
      && Step(r.next, AudioChunk(sendThrows)) == Transition(r.next, [])
  {
  }

  /**
   * `tts-start-transcription` checks, in order, the API key, `isStreaming` and the audio
   * source, and then whether the client library loads; each failing check changes
   * nothing and reports at most one error.
   */
  lemma StartTranscriptionGuards(s: State, clientLoads: bool, connects: bool)
    ensures var r := Step(s, StartTranscription(clientLoads, connects));
      && (s.apiKey.None? ==> r == Transition(s, [Notify(TtsError(MsgKeyMissing))]))
      && (s.apiKey.Some? && s.isStreaming ==> r == Transition(s, []))
      && (s.apiKey.Some? && !s.isStreaming && s.audio.None? ==>
            r == Transition(s, [Notify(TtsError(MsgAudioNotStarted))]))
      && (s.apiKey.Some? && !s.isStreaming && s.audio.Some? && !s.hasClient && !clientLoads ==>
            r == Transition(s, [Notify(TtsError(MsgTranscriptionFailed))]))
  {
  }

  /**
   * Past its guards, start-transcription creates one transcriber, and installs the
   * audio listener only on a successful connect and only if none is installed yet; a
   * failed connect reports 'Failed to start transcription'.
   */
  lemma StartTranscriptionInstallsOnce(s: State, clientLoads: bool, connects: bool)
    requires Inv(s)
    requires s.apiKey.Some? && !s.isStreaming && s.audio.Some? && (s.hasClient || clientLoads)
    ensures var r := Step(s, StartTranscription(clientLoads, connects));
      && r.next.transcribers == s.transcribers + [StartedByUser]
      && r.next.hasClient && !r.next.isReady && r.next.ws.None?
      && r.next.audioHandlerSet == (s.audioHandlerSet || connects)
      && r.next.dataHandlers == (if r.next.audioHandlerSet then 1 else 0)
      && (connects ==> r.effects == [])
      && (!connects ==> r.effects == [Notify(TtsError(MsgTranscriptionFailed))])
  {
  }

  /**
   * Under the invariants `tts-stop-audio` also removes the audio listener, closes the
   * current connection if there is one, and then reports stopped.
   */
  lemma StopAudioResets(s: State)
    requires Inv(s)
    ensures var r := Step(s, StopAudio);
      && !r.next.audioHandlerSet && r.next.dataHandlers == 0
      && (s.ws.Some? ==> r.effects == [CloseConnection(s.ws.value), Notify(TtsStatus(false))])
      && (s.ws.None? ==> r.effects == [Notify(TtsStatus(false))])
  {
  }

  /**
   * `tts-stop-transcription` resets a subset of what `tts-stop-audio` resets: stopping
   * transcription first and then audio ends in the same state as stopping audio alone,
   * and the connection is closed only once.
   */
  lemma StopTranscriptionThenAudio(s: State)
    ensures var first := Step(s, StopTranscription);
      var second := Step(first.next, StopAudio);
      && second.next == Step(s, StopAudio).next
      && first.effects + second.effects == Step(s, StopAudio).effects + [Notify(TtsStatus(false))]
  {
  }

  // ---------------------------------------------------------------------------
  // Reconnection, were it entered

  /** With no API key or no audio source, `attemptReconnection` only reports stopped. */
  lemma ReconnectWithoutPrerequisites(s: State, clientLoads: bool, connects: bool, failure: string)
    requires s.apiKey.None? || s.audio.None?
    ensures AttemptReconnection(s, clientLoads, connects, failure) == Transition(s, [Notify(TtsStatus(false))])
  {
  }

  /**
   * The reconnection transcriber's close callback schedules another attempt only while
   * fewer than the maximum have been made, and reports stopped once they are used up.
   */
  lemma ReconnectedCloseBounded(s: State, t: Transcriber)
    requires Known(s, t) && t.origin == StartedByReconnect
    requires s.reconnectAttempts <= MaxReconnectAttempts
    ensures var r := Step(s, Closed(t));
      && r.next.reconnectAttempts <= MaxReconnectAttempts
      && (s.reconnectAttempts < MaxReconnectAttempts ==>
            r.next.reconnectAttempts == s.reconnectAttempts + 1 && r.next.heldTimer && r.effects == [])
      && (s.reconnectAttempts == MaxReconnectAttempts ==>
            r.next.reconnectAttempts == s.reconnectAttempts && r.next.heldTimer == s.heldTimer
            && r.effects == [Notify(TtsStatus(false))])
  {
  }

  lemma StepKeepsAttemptBound(s: State, e: Event)
    requires s.reconnectAttempts <= MaxReconnectAttempts
    ensures Step(s, e).next.reconnectAttempts <= MaxReconnectAttempts
  {
  }

  /**
   * Stopping clears only the timer whose handle is held. A timer whose handle was
   * overwritten by a later close still fires and enters `attemptReconnection`.
   */
  lemma OrphanTimerSurvivesStop(s: State, clientLoads: bool, connects: bool, failure: string)
    requires s.orphanTimers > 0
    ensures var stopped := Step(s, StopTranscription).next;
      && !stopped.heldTimer && stopped.orphanTimers == s.orphanTimers
      && Step(stopped, TimerFired(false, clientLoads, connects, failure))
         == AttemptReconnection(stopped.(orphanTimers := s.orphanTimers - 1), clientLoads, connects, failure)
  {
  }

  /** From any state within the bound, no sequence of events exceeds `maxReconnectAttempts`. */
  lemma {:induction false} ReconnectAttemptsBounded(s: State, events: seq<Event>)
    requires s.reconnectAttempts <= MaxReconnectAttempts
    ensures Run(s, events).next.reconnectAttempts <= MaxReconnectAttempts
    decreases |events|
  {
    if events != [] {
      StepKeepsAttemptBound(s, events[0]);
      ReconnectAttemptsBounded(Step(s, events[0]).next, events[1..]);
    }
  }

  // ---------------------------------------------------------------------------
  // A whole session

  /** `Run` over a non-empty list is the first step followed by the rest. */
  lemma RunCons(s: State, events: seq<Event>, mid: State, first: seq<Effect>, rest: seq<Effect>, last: State)
    requires events != []
    requires Step(s, events[0]) == Transition(mid, first)
    requires Run(mid, events[1..]) == Transition(last, rest)
    ensures Run(s, events) == Transition(last, first + rest)
  {
  }

  /** Off macOS with no devices listed, capture starts on the default input. */
  lemma ScenarioStartAudio()
    ensures Step(Init(), StartAudioOther([], true))
      == Transition(Init().(audio := Some(PortAudioInput(AudioDevices.DefaultDeviceId))), [])
  {
  }

  /** With a key and a source, the first start-transcription creates transcriber 0 and the listener. */
  lemma ScenarioStartTranscription(s: State)
    requires s == Init().(audio := Some(PortAudioInput(AudioDevices.DefaultDeviceId)), apiKey := Some("k"))
    ensures Step(s, StartTranscription(true, true))
      == Transition(s.(hasClient := true, transcribers := [StartedByUser], audioHandlerSet := true, dataHandlers := 1), [])
  {
  }

  /** Transcriber 0 opening makes the session live. */
  lemma ScenarioOpen(s: State, t: Transcriber)
    requires t == Transcriber(0, StartedByUser) && s.transcribers == [StartedByUser]
    ensures Step(s, Opened(t))
      == Transition(s.(isStreaming := true, isReady := true, ws := Some(t), reconnectAttempts := 0, heldTimer := false),
                    [Notify(TtsStatus(true))])
  {
  }

  /** A turn of the first transcriber in the open session of the scenario below. */
  lemma HelloWorldTurns(s: State, t: Transcriber)
    requires Known(s, t) && t.origin == StartedByUser
    ensures Step(s, TurnReceived(t, Some("hello world"))) == Transition(s, [Notify(TtsTranscript("hello world"))])
    ensures Step(s, TurnReceived(t, Some("   "))) == Transition(s, [])
  {
    assert !IsSpace("hello world"[0]);
    TurnForwardsNonBlank(s, t, Some("hello world"));
    assert AllSpace("   ");
    TurnForwardsNonBlank(s, t, Some("   "));
  }

  /**
   * Capture starts, a key is stored, transcription starts and opens, a spoken turn is
   * forwarded and a blank one is not: the renderer sees `{running: true}` and then the
   * one transcript.
   */
  lemma HelloWorldSession()
    ensures var t := Transcriber(0, StartedByUser);
      var events := [StartAudioOther([], true), StoreConfig(Some("k")), StartTranscription(true, true),
                     Opened(t), TurnReceived(t, Some("hello world")), TurnReceived(t, Some("   "))];
      Run(Init(), events).effects == [Notify(TtsStatus(true)), Notify(TtsTranscript("hello world"))]
  {
    var t := Transcriber(0, StartedByUser);
    var events := [StartAudioOther([], true), StoreConfig(Some("k")), StartTranscription(true, true),
                   Opened(t), TurnReceived(t, Some("hello world")), TurnReceived(t, Some("   "))];
    var s0 := Init();
    var s1 := s0.(audio := Some(PortAudioInput(AudioDevices.DefaultDeviceId)));
    var s2 := s1.(apiKey := Some("k"));
    var s3 := s2.(hasClient := true, transcribers := [StartedByUser], audioHandlerSet := true, dataHandlers := 1);
    var s4 := s3.(isStreaming := true, isReady := true, ws := Some(t), reconnectAttempts := 0, heldTimer := false);
    ScenarioStartAudio();
    assert OnStoreConfig(s1, Some("k")).next == s2;
    ScenarioStartTranscription(s2);
    ScenarioOpen(s3, t);
    var onAir := [Notify(TtsStatus(true))];
    var said := [Notify(TtsTranscript("hello world"))];
    HelloWorldTurns(s4, t);
    assert Run(s4, events[6..]) == Transition(s4, []);
    RunCons(s4, events[5..], s4, [], [], s4);
    RunCons(s4, events[4..], s4, said, [], s4);
    RunCons(s3, events[3..], s4, onAir, said + [], s4);
    RunCons(s2, events[2..], s3, [], onAir + (said + []), s4);
    RunCons(s1, events[1..], s2, [], [] + (onAir + (said + [])), s4);
    RunCons(s0, events, s1, [], [] + ([] + (onAir + (said + []))), s4);
  }
}

=== FILE: utf16.dfy ===
/**
 * JavaScript strings as sequences of UTF-16 code units: what `length`, `slice` and
 * indexing count. A Dafny `string` holds Unicode scalar values; `Encode` gives the code
 * units JavaScript sees for it.
 */
module Utf16 {

  /** One UTF-16 code unit. */
  type CodeUnit = u: int | 0 <= u < 0x1_0000

  /** Characters below U+10000 take one code unit; the others take a surrogate pair. */
  predicate InBmp(c: char) {
    c as int < 0x1_0000
  }

  /** The code units of one character. */
  function Units(c: char): (r: seq<CodeUnit>)
    ensures InBmp(c) ==> r == [c as int]
    ensures !InBmp(c) ==> |r| == 2 && 0xD800 <= r[0] < 0xDC00 && 0xDC00 <= r[1] < 0xE000
  {
    if InBmp(c) then [c as int]
    else
      var v := c as int - 0x1_0000;
      [0xD800 + v / 0x400, 0xDC00 + v % 0x400]
  }

  /** The code units of a string, character by character. */
  function Encode(s: string): (r: seq<CodeUnit>)
    ensures |r| >= |s|
    decreases |s|
  {
    if s == [] then [] else Units(s[0]) + Encode(s[1..])
  }

  /** Every character of `s` takes a single code unit. */
  predicate AllBmp(s: string) {
    forall i :: 0 <= i < |s| ==> InBmp(s[i])
  }

  /** Encoding distributes over concatenation. */
  lemma {:induction false} EncodeAppend(a: string, b: string)
    ensures Encode(a + b) == Encode(a) + Encode(b)
    decreases |a|
  {
    if a == [] {
      assert a + b == b;
    } else {
      assert (a + b)[0] == a[0];
      assert (a + b)[1..] == a[1..] + b;
      EncodeAppend(a[1..], b);
      assert Encode(a + b) == Units(a[0]) + (Encode(a[1..]) + Encode(b));
    }
  }

  /**
   * On text without characters above U+FFFF, code units and characters coincide, so a
   * JavaScript length or slice counts characters.
   */
  lemma {:induction false} EncodeAllBmp(s: string)
    requires AllBmp(s)
    ensures |Encode(s)| == |s|
    ensures forall i :: 0 <= i < |s| ==> Encode(s)[i] == s[i] as int
    decreases |s|
  {
    if s != [] {
      assert AllBmp(s[1..]) by {
        forall i | 0 <= i < |s[1..]| ensures InBmp(s[1..][i]) {
          assert s[1..][i] == s[i + 1];
        }
      }
      EncodeAllBmp(s[1..]);
    }
  }

  /** On text without characters above U+FFFF, the first `n` code units encode the first `n` characters. */
  lemma EncodePrefixAllBmp(s: string, n: nat)
    requires AllBmp(s) && n <= |s|
    ensures |Encode(s)| == |s|
    ensures Encode(s)[..n] == Encode(s[..n])
  {
    var head := s[..n];
    assert s == head + s[n..];
    EncodeAppend(head, s[n..]);
    assert AllBmp(head) by {
      forall i | 0 <= i < |head| ensures InBmp(head[i]) {
        assert head[i] == s[i];
      }
    }
    EncodeAllBmp(head);
    EncodeAllBmp(s);
  }

  /** Text made only of characters above U+FFFF is twice as long in code units. */
  lemma {:induction false} EncodeNoneBmp(s: string)
    requires forall i :: 0 <= i < |s| ==> !InBmp(s[i])
    ensures |Encode(s)| == 2 * |s|
    decreases |s|
  {
    if s != [] {
      assert forall i :: 0 <= i < |s[1..]| ==> !InBmp(s[1..][i]) by {
        forall i | 0 <= i < |s[1..]| ensures !InBmp(s[1..][i]) {
          assert s[1..][i] == s[i + 1];
        }
      }
      EncodeNoneBmp(s[1..]);
    }
  }
}
